=== FILE: README.md ===
# Request authentication of the OpenAPI connector, in Dafny

This project models `Authentication`, the request filter of the Trino OpenAPI
connector. The filter adds credentials to every outgoing HTTP request and
listens for response statuses. It does this in four steps:

- **Resolve.** It finds the operation's security requirements. The filter looks
  up the OpenAPI path (the `X-Trino-OpenAPI-Path` header) and the HTTP method in
  the per-operation table. If that operation is absent, it uses the document-wide
  list.
- **Try the alternatives.** It tries them in order. An alternative is applied
  entry by entry, dispatching on the scheme type:
  - API key: cookie, header or query placement.
  - HTTP: a bearer token, or `Capitalized-scheme base64url(user:password)`.
  - OAuth2: a client-credentials bearer token.

  A `NullPointerException` makes the filter move on to the next alternative. Any
  other exception leaves the filter.
- **Fall back.** If the list is `null` or empty, it uses the configured default
  authentication type.
- **Invalidate.** A 401 status drops the cached OAuth2 token.

The filter mutates a request builder and a process-wide token field. Here both
are values:
- An operation takes the builder and the `Cache` (the token state plus the number
  of calls made to the token endpoint).
- It returns a `Step`: the new builder, the new cache, and the exception in
  flight, if any.
- Exceptions keep their Java kinds (`Model.Fault`). Java `null` is `Option.None`.
- The clock (nanoseconds) and the token endpoint are inputs of a `Context`. The
  endpoint is a function from the request and the call number to a reply, or to
  a failure.

Modules, in dependency order:

| module | file | contents |
|---|---|---|
| `Sequences` | sequences.dfy | small facts about sequence concatenation |
| `JavaText` | text.dfy | `Option`, how `null` is rendered, ASCII case mapping, split/join |
| `Encoding` | encoding.dfy | UTF-8, `URLEncoder` form encoding, Guava `base64Url`, and their decoders |
| `Model` | model.dfy | scheme table, configuration, request, token reply, faults, cache, `Step` |
| `Resolver` | resolver.dfy | `getRequirements` |
| `Credentials` | credentials.dfy | `applyApiKeyAuth`, `applyHttpAuth`, `getAuthHeader`, `capitalize`, `getBody`, `encodePair` |
| `TokenCache` | token_cache.dfy | `getToken`, `initToken`, the memoizing supplier, `applyOAuth`, `statusReceived` |
| `Interceptor` | interceptor.dfy | the dispatch lambda, `applyAuthFilters`, the default fallback, `filterRequest` |

## Model

Source cells are paths from the repository root, with the cited lines.

| member | source | states |
|---|---|---|
| Resolver.GetRequirements | src/main/java/pl/net/was/authentication/Authentication.java:134-142 | A `null` path is a `NullPointerException`, and nothing else is. A declared `(path, method)` pair resolves to its own list. Every other pair resolves to the document-wide list. |
| Resolver.DeclareOverrides | src/main/java/pl/net/was/authentication/Authentication.java:138-141 | Declaring a list for one operation makes that operation resolve to exactly that list. Every other operation resolves as before. |
| Resolver.UndeclaredShareDefault | src/main/java/pl/net/was/authentication/Authentication.java:141 | Any two undeclared operations resolve to the same list. |
| Credentials.EncodePair | src/main/java/pl/net/was/authentication/Authentication.java:308-311 | The result is the key, then `=`, then the form-encoded value. It contains no `&` unless the key does. |
| Credentials.EncodePairRoundTrip | src/main/java/pl/net/was/authentication/Authentication.java:308-311 | For a key without `=`, splitting at the first `=` gives back the key and the encoded value. The value decodes to the UTF-8 bytes of the original. |
| Encoding.UrlEncode | src/main/java/pl/net/was/authentication/Authentication.java:310 | `URLEncoder.encode` output uses only unreserved characters, `+` and `%XX`, so it never contains `&` or `=`. |
| Encoding.UrlEncodeRoundTrip | src/main/java/pl/net/was/authentication/Authentication.java:310 | Form decoding inverts form encoding: the result is the UTF-8 bytes of the input. |
| Encoding.Utf8Append | src/main/java/pl/net/was/authentication/Authentication.java:252 | The UTF-8 encoding of a concatenation is the concatenation of the encodings. |
| Credentials.ApiKeyName | src/main/java/pl/net/was/authentication/Authentication.java:172-173 | The name is the scheme's own name, else the configured `apiKeyName`. If both are `null`, the result is a `NullPointerException`. |
| Credentials.ApiKeyValue | src/main/java/pl/net/was/authentication/Authentication.java:174-181 | A non-empty `apiKeys` table is the only source of values: a missing name is a `NullPointerException`. With an empty table, `apiKeyValue` is used, and `null` is a `NullPointerException`. |
| Credentials.ApiKey | src/main/java/pl/net/was/authentication/Authentication.java:172-181 | Name and value are both found, or the fault of the first missing one is returned: the name's fault wins over the value's. |
| Credentials.ApplyApiKeyAuth | src/main/java/pl/net/was/authentication/Authentication.java:170-201 | A missing name or value returns that fault, and a missing location is a `NullPointerException`. Header placement appends exactly `name: value`. Cookie placement appends exactly `Cookie: name=<encoded value>`. Query placement keeps the method, the headers and every URI part except the query. The query becomes the pair when there was none, else the old query, `&` and the pair. |
| Credentials.PlacedPairReadsBack | src/main/java/pl/net/was/authentication/Authentication.java:183-193 | For a key without `=`, the placed cookie value, or the new query of a URI that had none, splits back into the key and the form-encoded value. |
| Credentials.QueryWithPieces | src/main/java/pl/net/was/authentication/Authentication.java:191 | Split at `&`, the new query is the old pieces followed by the new pair's pieces. |
| Interceptor.QueryKeyAppended | src/main/java/pl/net/was/authentication/Authentication.java:186-193 | With an existing query `q`, the new query is `q&name=encoded-value`. |
| Interceptor.QueryKeysDoNotAccumulate | src/main/java/pl/net/was/authentication/Authentication.java:188-193 | A second query key gives the same request as that key applied alone. The URI is rebuilt from the original request URI, so the first key's query is lost. |
| Credentials.Capitalize | src/main/java/pl/net/was/authentication/Authentication.java:255-258 | On an empty input this is the out-of-bounds exception, and only there. Otherwise the first character is upper-cased and every later character is lower-cased, and the length is kept. |
| Credentials.CapitalizeIdempotent | src/main/java/pl/net/was/authentication/Authentication.java:255-258 | Capitalizing a capitalized string changes nothing. |
| Credentials.CapitalizeIgnoresCase | src/main/java/pl/net/was/authentication/Authentication.java:255-258 | Two inputs that differ only in letter case capitalize alike. |
| Credentials.CapitalizeDigest | src/main/java/pl/net/was/authentication/Authentication.java:257 | "DIGEST" becomes "Digest", and "basic" becomes "Basic". |
| Credentials.GetAuthHeader | src/main/java/pl/net/was/authentication/Authentication.java:250-253 | On an empty scheme the result is the exception, and only there. Otherwise the value is the capitalized scheme, then a space, then a base64url text that decodes to the UTF-8 bytes of `user:password` (a `null` credential renders as "null"). |
| Encoding.Base64UrlRoundTrip | src/main/java/pl/net/was/authentication/Authentication.java:252 | Decoding the padded base64url encoding of any byte string gives that byte string back. |
| Encoding.Base64UrlLength | src/main/java/pl/net/was/authentication/Authentication.java:252 | The encoding has 4 characters per started group of 3 bytes. |
| Credentials.HttpAuthValue | src/main/java/pl/net/was/authentication/Authentication.java:203-213 | A scheme that upper-cases to "BEARER" gives `Bearer <bearerToken>`. Every other scheme gives `getAuthHeader(scheme, username, password)`. A `null` scheme means the configured default scheme. |
| Credentials.ApplyHttpAuth | src/main/java/pl/net/was/authentication/Authentication.java:203-214 | The call fails iff the effective scheme is empty, and then with `capitalize`'s `StringIndexOutOfBoundsException`. Otherwise exactly one `Authorization` header is appended to the unchanged headers, and the method and URI are kept. |
| Credentials.BearerIgnoresCredentials | src/main/java/pl/net/was/authentication/Authentication.java:207-209 | For a bearer scheme, the header does not depend on username or password, and it never fails. |
| Credentials.IsBearerCaseInsensitive | src/main/java/pl/net/was/authentication/Authentication.java:207 | A scheme counts as bearer iff it is "bearer" in any letter case. |
| Credentials.GetBody | src/main/java/pl/net/was/authentication/Authentication.java:291-306 | The body splits at `&` into exactly the encoded pairs of the parameters, in order; `GetBodyRoundTrip` reads those pairs back into keys and encoded values. |
| Credentials.BodyParams | src/main/java/pl/net/was/authentication/Authentication.java:294-301 | `grant_type` comes first. `username` and `password` follow, in that order, each only when non-null and non-empty. |
| Credentials.GetBodyRoundTrip | src/main/java/pl/net/was/authentication/Authentication.java:291-306 | The body, split at `&` and then at `=`, reads back as exactly those parameters in order, with the values form-encoded. |
| TokenCache.TokenRequest | src/main/java/pl/net/was/authentication/Authentication.java:101-106 | A token request exists iff the grant type is non-null and non-empty. Its content type is form-urlencoded and its body is `getBody`. Its authorization is `Basic ` followed by base64url text that decodes to `clientId:clientSecret`. |
| TokenCache.GetToken | src/main/java/pl/net/was/authentication/Authentication.java:260-276 | Without a prepared request body, or with a `null` token endpoint, the result is a `NullPointerException` before any call. Otherwise it is exactly one call, counted even when it fails, and the reply is the endpoint's answer to that call. |
| TokenCache.MemoGet | src/main/java/pl/net/was/authentication/Authentication.java:247 | A fresh entry is served with no call and no change. A stale or missing entry costs one `getToken`. On success the entry is replaced, expiring one window from now; on failure the old entry stays. The window never changes. |
| TokenCache.InitToken | src/main/java/pl/net/was/authentication/Authentication.java:243-248 | It succeeds iff the fetch succeeds with `expires_in > 0`. The new supplier is empty, with a window of `expires_in` seconds in nanoseconds. On failure the field keeps its old value, but the call still counts. The exception is `getToken`'s own, or `IllegalArgumentException` for `expires_in <= 0`. |
| TokenCache.CurrentToken | src/main/java/pl/net/was/authentication/Authentication.java:236-240 | A use makes at most two calls. A token it returns is the one now cached. `TokenFaults`, `FetchFailureEscapes` and `FirstUseFetchesTwice` state its faults and the entry it stores. |
| TokenCache.ApplyOAuth | src/main/java/pl/net/was/authentication/Authentication.java:216-241 | On success it appends `Authorization: Bearer <access_token>`. On failure the builder is unchanged and the cache keeps the calls made. |
| TokenCache.StatusReceived | src/main/java/pl/net/was/authentication/Authentication.java:313-319 | A 401 sets the token field to `null`. Any other status changes nothing. |
| TokenCache.FirstUseFetchesTwice | src/main/java/pl/net/was/authentication/Authentication.java:236-247 | When both calls get a reply and the first reply has `expires_in > 0`, the first use makes exactly two calls. It sends the second reply's token, and the window comes from the first reply. The stored entry is that token, expiring one window after the clock reading of the use. |
| TokenCache.NonPositiveWindowRejected | src/main/java/pl/net/was/authentication/Authentication.java:245-247 | A first reply with `expires_in <= 0` is an `IllegalArgumentException` after one call, and the field stays `null`. |
| TokenCache.FetchFailureEscapes | src/main/java/pl/net/was/authentication/Authentication.java:236-263 | When the endpoint call fails and no fresh token is cached, the use fails with the transport's exception, not a `NullPointerException`, after one call and with the field as it was. |
| TokenCache.TokenFaults | src/main/java/pl/net/was/authentication/Authentication.java:236-276 | A failing use raises the transport's failure, a `NullPointerException` only when the grant type or token endpoint is missing (naming which), or `IllegalArgumentException` for a non-positive window while the field is `null`. |
| TokenCache.NoFetchWithoutEndpoint | src/main/java/pl/net/was/authentication/Authentication.java:260-276 | Without a grant type or without a token endpoint, a use with no fresh token makes no call, leaves the cache as it was, and fails with a `NullPointerException` naming which of the two is missing. |
| TokenCache.FreshTokenReused | src/main/java/pl/net/was/authentication/Authentication.java:240 | Before its expiry the cached token is served again, with no call and no change to the cache. |
| TokenCache.ExpiredTokenRefetchedOnce | src/main/java/pl/net/was/authentication/Authentication.java:240 | From the expiry on, a use makes exactly one call. A success stores the reply with a new expiry and the same window. A failure keeps the old state. |
| TokenCache.UnauthorizedForcesFetch | src/main/java/pl/net/was/authentication/Authentication.java:313-319 | After a 401 the next use makes at least one call. A success is the reply to the second new call, never the dropped token. |
| TokenCache.NoFetchWithinWindow | src/main/java/pl/net/was/authentication/Authentication.java:236-240 | Any run of uses before the expiry, mixed with statuses other than 401, leaves the cache exactly as it was. |
| TokenCache.FetchesBounded | src/main/java/pl/net/was/authentication/Authentication.java:236-247 | Over any run of events, the endpoint is called at most twice per event. |
| TokenCache.WindowKept | src/main/java/pl/net/was/authentication/Authentication.java:247 | Over any run of events without a 401, the supplier stays installed with the window the first reply fixed. |
| Interceptor.ApplyScheme | src/main/java/pl/net/was/authentication/Authentication.java:152-160 | An unknown scheme name or a `null` type is a `NullPointerException` that leaves everything unchanged. OpenID Connect and mutual TLS give an `IllegalArgumentException`. The three supported types dispatch to their handlers, and only OAuth2 touches the cache. |
| Interceptor.TryAlternative | src/main/java/pl/net/was/authentication/Authentication.java:152-161 | A single entry does exactly what its scheme's handler does. The builder only gains headers and a query; the method is kept. The call count never decreases. An empty requirement does nothing. With `AlternativeSplits` this fixes every requirement. |
| Interceptor.AlternativeSplits | src/main/java/pl/net/was/authentication/Authentication.java:152-161 | Applying `r1 + r2` is applying `r1`, then, unless it failed, applying `r2` from where `r1` left off. |
| Interceptor.TryAll | src/main/java/pl/net/was/authentication/Authentication.java:149-167 | An empty list completes with the request unchanged. No `NullPointerException` leaves the loop. A first alternative that completes or throws anything else decides the result. `NullFailureMovesOn` states the remaining case for every input. |
| Interceptor.NullFailureMovesOn | src/main/java/pl/net/was/authentication/Authentication.java:150-166 | After a `NullPointerException` in the first alternative, the result is the rest of the list run on that alternative's builder and cache. |
| Interceptor.AbortedHeadersReachNext | src/main/java/pl/net/was/authentication/Authentication.java:150-166 | The `Authorization` header added before an unknown scheme is on the builder the next alternatives start from. |
| Interceptor.MissingKeyFallsThrough | src/main/java/pl/net/was/authentication/Authentication.java:150-181 | An API key alternative whose name or value is not configured leaves no trace: the next alternatives decide. |
| Interceptor.EmptySchemeStops | src/main/java/pl/net/was/authentication/Authentication.java:150-166 | An HTTP alternative with an empty scheme ends the loop with `StringIndexOutOfBoundsException`; later alternatives are never tried. |
| Interceptor.OAuthFetchFailureStops | src/main/java/pl/net/was/authentication/Authentication.java:150-166 | When no fresh token is cached and the endpoint call fails, the loop ends with that exception. The builder is unchanged, later alternatives are never tried, and the call is counted. |
| Interceptor.ApplyAuthFilters | src/main/java/pl/net/was/authentication/Authentication.java:144-168 | A `null` list does nothing. Otherwise the alternatives are tried in order, and no `NullPointerException` escapes. |
| Interceptor.UnusableSkipped | src/main/java/pl/net/was/authentication/Authentication.java:150-166 | Alternatives whose first entry names an unknown scheme leave no trace, so prefixing them changes nothing. |
| Interceptor.FallBackToSecond | src/main/java/pl/net/was/authentication/Authentication.java:150-166 | When the first alternative names an unknown scheme, the result equals the second alternative applied alone. |
| Interceptor.EmptyAlternativeWins | src/main/java/pl/net/was/authentication/Authentication.java:150-162 | An empty alternative after unusable ones completes at once, with the request unchanged. |
| Interceptor.AbortedHeadersStay | src/main/java/pl/net/was/authentication/Authentication.java:152-166 | An alternative that adds an HTTP header and then hits an unknown scheme fails with the header already on the builder. |
| Interceptor.OAuthWithoutEndpointFallsThrough | src/main/java/pl/net/was/authentication/Authentication.java:150-166 | An alternative that needs an OAuth2 token that cannot be fetched, with no fresh token cached, leaves no trace: the next alternatives decide the result. |
| Interceptor.UnsupportedTypeStops | src/main/java/pl/net/was/authentication/Authentication.java:159-164 | An OpenID Connect scheme in the first alternative aborts the filter, whatever follows. |
| Interceptor.ApplyDefault | src/main/java/pl/net/was/authentication/Authentication.java:120-130 | API_KEY applies a header key whose name comes from the configuration. HTTP applies the default scheme. OAUTH applies the token. NONE does nothing. |
| Interceptor.FilterRequest | src/main/java/pl/net/was/authentication/Authentication.java:112-132 | Without the path header, the request fails with a `NullPointerException` and is unchanged. With it, a `null` or empty requirement list applies the default type, and any other list is tried alternative by alternative. The builder only gains headers and a query. A `NullPointerException` leaves only when the path is missing or a default type is configured. |
| Interceptor.NoDefaultForDeclared | src/main/java/pl/net/was/authentication/Authentication.java:120 | A non-empty requirement list never brings in the default. |
| Interceptor.NoneLeavesRequest | src/main/java/pl/net/was/authentication/Authentication.java:120 | With no requirement and default type NONE, the request leaves unchanged. |
| Interceptor.DefaultApiKeyHeader | src/main/java/pl/net/was/authentication/Authentication.java:122-126 | With no requirement and default type API_KEY, the configured key goes into one header named `apiKeyName`. |
| Interceptor.DefaultFailureEscapes | src/main/java/pl/net/was/authentication/Authentication.java:120-126 | A `NullPointerException` from the default fallback is not ignored; it leaves the filter. |
| Interceptor.PetStoreExample | src/main/java/pl/net/was/authentication/Authentication.java:112-132 | `GET /pets` that requires the header key `X-Api-Key`, with "secret123" configured, gains exactly `X-Api-Key: secret123` and nothing else. |
| Model.HeaderValue | src/main/java/pl/net/was/authentication/Authentication.java:118 | The result is present iff a header of that name exists, and it is the value of the first such header. |

### Behaviours of the code worth knowing

- **First token use.** When both calls get a reply and the first reply has `expires_in > 0`, the first use calls the token endpoint twice. `initToken` fetches a token only to read `expires_in`, and the new supplier fetches again on its first `get()` (`FirstUseFetchesTwice`). A failed first call, or `expires_in <= 0`, ends the use after one call (`NonPositiveWindowRejected`). After a 401 the next use makes at least one call, and exactly two when it returns a token (`UnauthorizedForcesFetch`).
- **Unsupported schemes.** An OpenID Connect or mutual TLS scheme throws `IllegalArgumentException`. The loop catches only `NullPointerException`, so this exception ends the whole request (`UnsupportedTypeStops`).
- **Partly applied alternatives.** An alternative that fails part-way keeps the headers its earlier entries added, and a token fetch it made stays counted. The result equals the second alternative applied alone only when the first left no trace (`AbortedHeadersStay`, `FallBackToSecond`).
- **`null` credentials.** A `null` username, password, bearer token, client id, client secret or access token is written as the text "null", as Java string concatenation and `formatted` do.
- **Empty scheme.** An empty HTTP scheme makes `capitalize` throw `StringIndexOutOfBoundsException`. The loop does not catch it (`EmptySchemeStops`).
- **Default fallback.** The fallback runs outside the `try`, so its `NullPointerException` leaves the filter (`DefaultFailureEscapes`).
- **Two query keys.** When one alternative carries two query API keys, each rebuilds the query from the original URI, so the second key's query replaces the first (`QueryKeysDoNotAccumulate`).

## Left out

- URI construction: `new URI(...)` quoting, and the `RuntimeException` wrapping a `URISyntaxException` (lines 188-197). The query is modelled as the unquoted string passed to the constructor.
- `getTokenUri` (lines 273-289) beyond its `null` check, the HTTP transport and JSON decoding of the token reply. The endpoint is a function input returning a reply or a failure, and the token URI is not part of the modelled request.
- TokenCache.GetToken: a `null` token endpoint is modelled as a `NullPointerException` before any call (line 276). A malformed endpoint (the `TrinoException` at lines 280-282) and resolution against the base URI are not modelled. A reply of JSON `null` is not modelled either. In the code it gives a `NullPointerException` at line 247 or line 240, and Guava may cache the `null`. The model's endpoint returns either a decoded reply or a failure.
- Encoding.Utf8: Dafny strings hold Unicode scalar values, and Java strings hold UTF-16 code units. An unpaired surrogate, which `getBytes(UTF_8)` (lines 252 and 267) and `URLEncoder.encode` (line 310) replace with `?`, cannot occur in the model.
- `PathItem.HttpMethod.valueOf` on an unknown method name (line 116). The request method is already an enumeration, so `requireNonNull(method)` (line 137) cannot fail.
- Credentials.GetBody: takes a non-null grant type. Its only caller checks the grant type first (line 101), so the `requireNonNull` at line 293 is not modelled.
- Credentials.ApplyApiKeyAuth: the `IllegalArgumentException` of an unknown location (line 199) is left out. `SecurityScheme.In` has only COOKIE, HEADER and QUERY, so only a `null` location (a `NullPointerException`) can fail there.
- Concurrency: Guava's synchronized, volatile supplier and racing fetches. Events are modelled as one sequence.
- TokenCache.InitToken: the window is `expires_in` × 10^9 in unbounded integers. `Duration.toNanos` overflow and saturation on huge `expires_in` values are not modelled.
- TokenCache.MemoGet: freshness is `now < expiry` on unbounded integers. Guava's signed 64-bit `now - expiry` wrap-around is not modelled.
- JavaText.ToUpper: `Locale.ENGLISH` case mapping is modelled for ASCII letters only. Other characters are left as they are.
- Model.HeaderValue: header names are compared exactly. The HTTP client's own case handling of header names is not part of this model.
- Credentials.IsBearer: the configured `AuthenticationScheme` enumeration is not part of this model. Its `BEARER` constant is taken to print as "BEARER", and the default scheme is any string.
- The configuration constructor, dependency injection and the `TokenResponse` JSON annotations. Scopes in requirements and the `token_type` of the reply are carried but unused, as in the code.
- Exception messages are not modelled; faults record only their kind and cause.

=== FILE: credentials.dfy ===
/**
 Putting credential material on a request: API keys (header, cookie or query
 string), the HTTP `Authorization` header (bearer or `<Scheme> <base64url>`),
 and the form body of the OAuth2 client-credentials token request.
 */
module Credentials {
  import opened JavaText
  import opened Encoding
  import opened Model

  // ----------------------------------------------------------- key=value

  /** `encodePair(key, value)`: the key as is, the value form-encoded. */
  function EncodePair(key: string, value: string): (r: string)
    ensures |r| > |key| && r[..|key|] == key && r[|key|] == '='
    ensures r[|key| + 1..] == UrlEncode(value)
    ensures '&' !in key ==> '&' !in r
  {
    key + "=" + UrlEncode(value)
  }

  /** Reads `key=value` back, splitting at the first `=`. */
  function SplitPair(s: string): (string, string)
  {
    match IndexOf(s, '=')
    case None => (s, "")
    case Some(i) => (s[..i], s[i + 1..])
  }

  /** An encoded pair splits back into the key and the encoded value, and the
      value decodes to the UTF-8 bytes of the original. */
  lemma EncodePairRoundTrip(key: string, value: string)
    requires '=' !in key
    ensures SplitPair(EncodePair(key, value)) == (key, UrlEncode(value))
    ensures UrlDecodeBytes(SplitPair(EncodePair(key, value)).1) == Some(Utf8(value))
  {
    var r := EncodePair(key, value);
    assert r[..|key|] == key && r[|key|] == '=';
    UrlEncodeRoundTrip(value);
  }

  /** A form body read back as its list of pairs. */
  function ParseForm(body: string): seq<(string, string)>
  {
    var pieces := Split(body, '&');
    seq(|pieces|, i requires 0 <= i < |pieces| => SplitPair(pieces[i]))
  }

  // ------------------------------------------------------------- API key

  /** The key name: the scheme's own name, else the configured `apiKeyName`. */
  function ApiKeyName(cfg: Config, scheme: SecurityScheme): (r: Result<string>)
    ensures scheme.name.Some? ==> r == Ok(scheme.name.value)
    ensures scheme.name.None? && cfg.apiKeyName.Some? ==> r == Ok(cfg.apiKeyName.value)
    ensures r.Err? <==> scheme.name.None? && cfg.apiKeyName.None?
    ensures r.Err? ==> r.fault == NullPointer(NoApiKeyName)
  {
    match scheme.name
    case Some(n) => Ok(n)
    case None =>
      match cfg.apiKeyName
      case Some(n) => Ok(n)
      case None => Err(NullPointer(NoApiKeyName))
  }

  /** The key value: from the `apiKeys` table when it has any entry, else the single
      configured `apiKeyValue`. */
  function ApiKeyValue(cfg: Config, name: string): (r: Result<string>)
    ensures |cfg.apiKeys| > 0 ==>
      (r.Ok? <==> name in cfg.apiKeys) &&
      (r.Ok? ==> r.value == cfg.apiKeys[name]) &&
      (r.Err? ==> r.fault == NullPointer(MissingApiKey(name)))
    ensures |cfg.apiKeys| == 0 ==>
      (r.Ok? <==> cfg.apiKeyValue.Some?) &&
      (r.Ok? ==> r.value == cfg.apiKeyValue.value) &&
      (r.Err? ==> r.fault == NullPointer(NoApiKeyValue))
  {
    if |cfg.apiKeys| > 0 then
      if name in cfg.apiKeys then Ok(cfg.apiKeys[name]) else Err(NullPointer(MissingApiKey(name)))
    else
      match cfg.apiKeyValue
      case Some(v) => Ok(v)
      case None => Err(NullPointer(NoApiKeyValue))
  }

  /** The query after appending `pair`: the pair alone, or the old query, `&`, the pair. */
  function QueryWith(query: Option<string>, pair: string): (r: string)
    ensures query.None? ==> r == pair
    ensures query.Some? ==> |r| > |query.value| && r[..|query.value|] == query.value && r[|query.value|] == '&'
    ensures query.Some? ==> r[|query.value| + 1..] == pair
  {
    match query
    case None => pair
    case Some(q) => q + "&" + pair
  }

  /** The pieces of the new query are the old pieces followed by the new pair. */
  lemma QueryWithPieces(query: string, pair: string)
    ensures Split(QueryWith(Some(query), pair), '&') == Split(query, '&') + Split(pair, '&')
  {
    SplitAppend(query, pair, '&');
  }

  /** Only the query changes; scheme, authority, path and fragment stay. */
  predicate SameExceptQuery(a: Uri, b: Uri)
  {
    a.scheme == b.scheme && a.authority == b.authority && a.path == b.path && a.fragment == b.fragment
  }

  /** The key name and value, checked in that order before anything is placed. */
  function ApiKey(cfg: Config, scheme: SecurityScheme): (r: Result<(string, string)>)
    ensures r.Ok? <==> ApiKeyName(cfg, scheme).Ok? && ApiKeyValue(cfg, ApiKeyName(cfg, scheme).value).Ok?
    ensures r.Ok? ==> r.value == (ApiKeyName(cfg, scheme).value, ApiKeyValue(cfg, ApiKeyName(cfg, scheme).value).value)
    ensures ApiKeyName(cfg, scheme).Err? ==> r == Err(ApiKeyName(cfg, scheme).fault)
    ensures ApiKeyName(cfg, scheme).Ok? && r.Err? ==> r == Err(ApiKeyValue(cfg, ApiKeyName(cfg, scheme).value).fault)
  {
    match ApiKeyName(cfg, scheme)
    case Err(f) => Err(f)
    case Ok(name) =>
      match ApiKeyValue(cfg, name)
      case Err(f) => Err(f)
      case Ok(value) => Ok((name, value))
  }

  /** `applyApiKeyAuth(builder, uri, scheme)`. Name and value are checked before the
      builder is touched, so a failure leaves it as it was. A query placement rebuilds
      the URI from `uri`, the request's original URI, not from the builder. */
  function ApplyApiKeyAuth(cfg: Config, b: Request, uri: Uri, scheme: SecurityScheme): (r: Result<Request>)
    ensures ApiKey(cfg, scheme).Err? ==> r == Err(ApiKey(cfg, scheme).fault)
    ensures ApiKey(cfg, scheme).Ok? && scheme.location.None? ==> r == Err(NullPointer(NullLocation))
    ensures ApiKey(cfg, scheme).Ok? && scheme.location == Some(HEADER) ==>
      var (name, value) := ApiKey(cfg, scheme).value;
      r == Ok(AddHeader(b, name, value))
    ensures ApiKey(cfg, scheme).Ok? && scheme.location == Some(COOKIE) ==>
      var (name, value) := ApiKey(cfg, scheme).value;
      r == Ok(AddHeader(b, "Cookie", EncodePair(name, value)))
    ensures ApiKey(cfg, scheme).Ok? && scheme.location == Some(QUERY) ==>
      var (name, value) := ApiKey(cfg, scheme).value;
      r.Ok? && r.value.httpMethod == b.httpMethod && r.value.headers == b.headers
      && SameExceptQuery(r.value.uri, uri)
      && r.value.uri.query == Some(if uri.query.None? then EncodePair(name, value)
                                   else uri.query.value + "&" + EncodePair(name, value))
  {
    match ApiKey(cfg, scheme)
    case Err(f) => Err(f)
    case Ok((name, value)) =>
      match scheme.location
      case None => Err(NullPointer(NullLocation))
      case Some(COOKIE) => Ok(AddHeader(b, "Cookie", EncodePair(name, value)))
      case Some(HEADER) => Ok(AddHeader(b, name, value))
      case Some(QUERY) => Ok(b.(uri := uri.(query := Some(QueryWith(uri.query, EncodePair(name, value))))))
  }

  /** A placed cookie or a fresh query reads back as the key name and its encoded value
      whenever the name holds no `=`. */
  lemma PlacedPairReadsBack(cfg: Config, b: Request, uri: Uri, scheme: SecurityScheme)
    requires ApiKey(cfg, scheme).Ok? && '=' !in ApiKey(cfg, scheme).value.0
    requires scheme.location == Some(COOKIE) || (scheme.location == Some(QUERY) && uri.query.None?)
    ensures var (name, value) := ApiKey(cfg, scheme).value;
      var placed := ApplyApiKeyAuth(cfg, b, uri, scheme).value;
      SplitPair(if scheme.location == Some(COOKIE) then placed.headers[|b.headers|].value else placed.uri.query.value)
        == (name, UrlEncode(value))
  {
    var (name, value) := ApiKey(cfg, scheme).value;
    EncodePairRoundTrip(name, value);
  }

  // ---------------------------------------------------------------- HTTP

  /** `scheme.toUpperCase(Locale.ENGLISH).equals("BEARER")`. */
  predicate IsBearer(scheme: string)
  {
    ToUpper(scheme) == "BEARER"
  }

  /** `capitalize(s)`: first character upper-cased, the rest lower-cased; `None` stands
      for the `StringIndexOutOfBoundsException` that `substring(0, 1)` throws on "". */
  function Capitalize(s: string): (r: Option<string>)
    ensures r.None? <==> |s| == 0
    ensures r.Some? ==> |r.value| == |s| && r.value[0] == UpperChar(s[0])
    ensures r.Some? ==> forall i :: 1 <= i < |s| ==> r.value[i] == LowerChar(s[i])
  {
    if |s| == 0 then None else Some(ToUpper(s[..1]) + ToLower(s[1..]))
  }

  /** `base64Url` of the UTF-8 bytes of `"%s:%s".formatted(user, password)`. */
  function BasicToken(user: Option<string>, password: Option<string>): string
  {
    Base64Url(Utf8(Render(user) + ":" + Render(password)))
  }

  /** `getAuthHeader(scheme, username, password)`. */
  function GetAuthHeader(scheme: string, user: Option<string>, password: Option<string>): (r: Result<string>)
    ensures r.Err? <==> |scheme| == 0
    ensures r.Err? ==> r.fault == EmptyScheme
    ensures r.Ok? ==> |r.value| > |scheme| && r.value[|scheme|] == ' '
    ensures r.Ok? ==> Some(r.value[..|scheme|]) == Capitalize(scheme)
    ensures r.Ok? ==> Base64UrlDecode(r.value[|scheme| + 1..]) == Some(Utf8(Render(user) + ":" + Render(password)))
  {
    match Capitalize(scheme)
    case None => Err(EmptyScheme)
    case Some(c) =>
      var r := c + " " + BasicToken(user, password);
      assert r[..|scheme|] == c;
      assert r[|scheme| + 1..] == BasicToken(user, password);
      Base64UrlRoundTrip(Utf8(Render(user) + ":" + Render(password)));
      Ok(r)
  }

  /** The scheme `applyHttpAuth` uses: the given one, else the configured default. */
  function EffectiveScheme(cfg: Config, scheme: Option<string>): (r: string)
    ensures scheme.Some? ==> r == scheme.value
    ensures scheme.None? ==> r == cfg.defaultScheme
  {
    match scheme
    case Some(s) => s
    case None => cfg.defaultScheme
  }

  /** The `Authorization` value `applyHttpAuth` sets. */
  function HttpAuthValue(cfg: Config, scheme: Option<string>): (r: Result<string>)
    ensures IsBearer(EffectiveScheme(cfg, scheme)) ==> r == Ok("Bearer " + Render(cfg.bearerToken))
    ensures !IsBearer(EffectiveScheme(cfg, scheme)) ==>
      r == GetAuthHeader(EffectiveScheme(cfg, scheme), cfg.username, cfg.password)
  {
    var s := EffectiveScheme(cfg, scheme);
    if IsBearer(s) then Ok("Bearer " + Render(cfg.bearerToken))
    else GetAuthHeader(s, cfg.username, cfg.password)
  }

  /** `applyHttpAuth(builder, scheme)`: one `Authorization` header appended, or the
      exception of an empty scheme with the builder untouched. */
  function ApplyHttpAuth(cfg: Config, b: Request, scheme: Option<string>): (r: Result<Request>)
    ensures r.Err? <==> |EffectiveScheme(cfg, scheme)| == 0
    ensures r.Err? ==> r.fault == EmptyScheme
    ensures r.Ok? ==> r.value.httpMethod == b.httpMethod && r.value.uri == b.uri
    ensures r.Ok? ==> |r.value.headers| == |b.headers| + 1 && r.value.headers[..|b.headers|] == b.headers
    ensures r.Ok? ==> r.value.headers[|b.headers|] == Header("Authorization", HttpAuthValue(cfg, scheme).value)
  {
    match HttpAuthValue(cfg, scheme)
    case Err(f) => Err(f)
    case Ok(v) => Ok(AddHeader(b, "Authorization", v))
  }

  /** A bearer scheme, in any letter case, ignores username and password. */
  lemma BearerIgnoresCredentials(cfg: Config, scheme: Option<string>, user: Option<string>, password: Option<string>)
    requires IsBearer(EffectiveScheme(cfg, scheme))
    ensures HttpAuthValue(cfg, scheme) == HttpAuthValue(cfg.(username := user, password := password), scheme)
    ensures HttpAuthValue(cfg, scheme).Ok?
  {
  }

  /** `IsBearer` is a letter-case-insensitive comparison with "bearer". */
  lemma IsBearerCaseInsensitive(s: string)
    ensures IsBearer(s) <==> |s| == 6 && forall i :: 0 <= i < 6 ==> LowerChar(s[i]) == "bearer"[i]
  {
    if |s| == 6 && forall i :: 0 <= i < 6 ==> LowerChar(s[i]) == "bearer"[i] {
      forall i | 0 <= i < 6 ensures ToUpper(s)[i] == "BEARER"[i] {
        UpperLowerChar(s[i]);
      }
    }
    if IsBearer(s) {
      forall i | 0 <= i < 6 ensures LowerChar(s[i]) == "bearer"[i] {
        UpperLowerChar(s[i]);
        assert UpperChar(s[i]) == "BEARER"[i];
      }
    }
  }

  /** Capitalizing twice is capitalizing once. */
  lemma CapitalizeIdempotent(s: string)
    requires |s| > 0
    ensures Capitalize(Capitalize(s).value) == Capitalize(s)
  {
    var c := Capitalize(s).value;
    var cc := Capitalize(c).value;
    forall i | 0 <= i < |s| ensures cc[i] == c[i] {
      if i == 0 {
        assert UpperChar(UpperChar(s[0])) == UpperChar(s[0]);
      } else {
        assert LowerChar(LowerChar(s[i])) == LowerChar(s[i]);
      }
    }
    assert cc == c;
  }

  /** The letter case of the input does not matter. */
  lemma CapitalizeIgnoresCase(a: string, b: string)
    requires ToUpper(a) == ToUpper(b)
    ensures Capitalize(a) == Capitalize(b)
  {
    if |a| > 0 {
      var ca, cb := Capitalize(a).value, Capitalize(b).value;
      forall i | 0 <= i < |a| ensures ca[i] == cb[i] {
        assert ToUpper(a)[i] == ToUpper(b)[i];
        UpperLowerChar(a[i]);
        UpperLowerChar(b[i]);
      }
      assert ca == cb;
    }
  }

  /** "DIGEST" is sent as "Digest". */
  lemma CapitalizeDigest()
    ensures Capitalize("DIGEST") == Some("Digest")
    ensures Capitalize("basic") == Some("Basic")
  {
    var d := "DIGEST";
    assert d[..1] == "D" && d[1..] == "IGEST";
    assert ToUpper("D") == "D";
    assert ToLower("IGEST") == "igest";
    assert "D" + "igest" == "Digest";
    var b := "basic";
    assert b[..1] == "b" && b[1..] == "asic";
    assert ToUpper("b") == "B";
    assert ToLower("asic") == "asic";
    assert "B" + "asic" == "Basic";
  }

  // ------------------------------------------------------------ form body

  /** The parameters `getBody` puts in its `ImmutableMap`, in insertion order. */
  function BodyParams(grantType: string, user: Option<string>, password: Option<string>): (r: seq<(string, string)>)
    ensures |r| == 1 + (if user.Some? && |user.value| > 0 then 1 else 0)
                     + (if password.Some? && |password.value| > 0 then 1 else 0)
    ensures r[0] == ("grant_type", grantType)
    ensures (user.Some? && |user.value| > 0) ==> r[1] == ("username", user.value)
    ensures (password.Some? && |password.value| > 0) <==> r[|r| - 1] == ("password", Render(password))
  {
    [("grant_type", grantType)]
    + (if user.Some? && |user.value| > 0 then [("username", user.value)] else [])
    + (if password.Some? && |password.value| > 0 then [("password", password.value)] else [])
  }

  /** `getBody(grantType, username, password)`: the encoded pairs joined by `&`. No
      pair holds an `&`, so the body splits back into exactly those pairs. */
  function GetBody(grantType: string, user: Option<string>, password: Option<string>): (r: string)
    ensures var ps := BodyParams(grantType, user, password);
      Split(r, '&') == seq(|ps|, i requires 0 <= i < |ps| => EncodePair(ps[i].0, ps[i].1))
  {
    var ps := BodyParams(grantType, user, password);
    var pairs := seq(|ps|, i requires 0 <= i < |ps| => EncodePair(ps[i].0, ps[i].1));
    assert forall k :: 0 <= k < |ps| ==> ps[k].0 in {"grant_type", "username", "password"};
    assert forall k :: 0 <= k < |pairs| ==> '&' !in pairs[k];
    SplitJoin(pairs, '&');
    Join(pairs, '&')
  }

  /** Pairs whose keys hold no `&` and no `=`, joined by `&`, read back as the keys and
      the encoded values. */
  lemma {:induction false} ParseJoinedPairs(ps: seq<(string, string)>)
    requires |ps| >= 1
    requires forall k :: 0 <= k < |ps| ==> '&' !in ps[k].0 && '=' !in ps[k].0
    ensures ParseForm(Join(seq(|ps|, i requires 0 <= i < |ps| => EncodePair(ps[i].0, ps[i].1)), '&'))
            == seq(|ps|, i requires 0 <= i < |ps| => (ps[i].0, UrlEncode(ps[i].1)))
  {
    var pairs := seq(|ps|, i requires 0 <= i < |ps| => EncodePair(ps[i].0, ps[i].1));
    assert forall k :: 0 <= k < |pairs| ==> '&' !in pairs[k];
    SplitJoin(pairs, '&');
    forall k | 0 <= k < |pairs| ensures SplitPair(pairs[k]) == (ps[k].0, UrlEncode(ps[k].1)) {
      EncodePairRoundTrip(ps[k].0, ps[k].1);
    }
  }

  /** The body reads back as exactly the parameters, keys as is and values form-encoded,
      in the order `grant_type`, `username`, `password`. */
  lemma GetBodyRoundTrip(grantType: string, user: Option<string>, password: Option<string>)
    ensures var ps := BodyParams(grantType, user, password);
      ParseForm(GetBody(grantType, user, password))
        == seq(|ps|, i requires 0 <= i < |ps| => (ps[i].0, UrlEncode(ps[i].1)))
  {
    var ps := BodyParams(grantType, user, password);
    assert forall k :: 0 <= k < |ps| ==> ps[k].0 in {"grant_type", "username", "password"};
    ParseJoinedPairs(ps);
  }
}

=== FILE: encoding.dfy ===
/**
 The three library encoders the interceptor relies on, written out so that the
 strings it builds are concrete: UTF-8 (`getBytes(UTF_8)`), the
 application/x-www-form-urlencoded escaping of `URLEncoder.encode(_, UTF_8)`,
 and Guava's padded `base64Url()` (the URL- and filename-safe alphabet of
 section 5 of RFC 4648). Each encoder is paired with a decoder and a
 round-trip lemma; the decoders exist only to state those lemmas.
 */
module Encoding {
  import opened JavaText
  import opened Sequences

  type byte = b: int | 0 <= b < 256

  // ---------------------------------------------------------------- UTF-8

  /** The UTF-8 bytes of one Unicode scalar value. */
  function Utf8Char(c: char): (r: seq<byte>)
    ensures 1 <= |r| <= 4
    ensures (c as int < 0x80) <==> |r| == 1
    ensures c as int < 0x80 ==> r[0] == c as int
  {
    var n := c as int;
    if n < 0x80 then [n]
    else if n < 0x800 then [0xC0 + n / 64, 0x80 + n % 64]
    else if n < 0x10000 then [0xE0 + n / 4096, 0x80 + (n / 64) % 64, 0x80 + n % 64]
    else [0xF0 + n / 262144, 0x80 + (n / 4096) % 64, 0x80 + (n / 64) % 64, 0x80 + n % 64]
  }

  /** `s.getBytes(UTF_8)`. */
  function Utf8(s: string): (r: seq<byte>)
    ensures |r| >= |s|
    decreases |s|
  {
    if |s| == 0 then [] else Utf8Char(s[0]) + Utf8(s[1..])
  }

  lemma {:induction false} Utf8Append(a: string, b: string)
    ensures Utf8(a + b) == Utf8(a) + Utf8(b)
    decreases |a|
  {
    if |a| == 0 {
      assert a + b == b;
    } else {
      AppendHead(a, b);
      Utf8Append(a[1..], b);
      AppendAssoc(Utf8Char(a[0]), Utf8(a[1..]), Utf8(b));
    }
  }

  // ----------------------------------------------- form URL encoding

  /** Characters `URLEncoder` copies through unchanged. */
  predicate Unreserved(c: char)
  {
    IsUpper(c) || IsLower(c) || IsDigit(c) || c == '.' || c == '-' || c == '*' || c == '_'
  }

  /** Upper-case hexadecimal digit, as `URLEncoder` emits it. */
  function HexDigit(d: int): (r: char)
    requires 0 <= d < 16
    ensures IsDigit(r) || ('A' <= r <= 'F')
  {
    if d < 10 then ('0' as int + d) as char else ('A' as int + d - 10) as char
  }

  function HexValue(c: char): (r: Option<int>)
    ensures r.Some? ==> 0 <= r.value < 16
  {
    if IsDigit(c) then Some(c as int - '0' as int)
    else if 'A' <= c <= 'F' then Some(c as int - 'A' as int + 10)
    else if 'a' <= c <= 'f' then Some(c as int - 'a' as int + 10)
    else None
  }

  /** `%XY` for every byte. */
  function PercentEscape(bs: seq<byte>): (r: string)
    ensures |r| == 3 * |bs|
    ensures forall i :: 0 <= i < |r| ==> r[i] == '%' || IsDigit(r[i]) || 'A' <= r[i] <= 'F'
    decreases |bs|
  {
    if |bs| == 0 then ""
    else ['%', HexDigit(bs[0] / 16), HexDigit(bs[0] % 16)] + PercentEscape(bs[1..])
  }

  function UrlEncodeChar(c: char): (r: string)
    ensures |r| >= 1
  {
    if Unreserved(c) then [c]
    else if c == ' ' then "+"
    else PercentEscape(Utf8Char(c))
  }

  /** The characters a form-encoded value can contain. */
  predicate FormSafe(c: char)
  {
    Unreserved(c) || c == '+' || c == '%'
  }

  /** `URLEncoder.encode(s, UTF_8)`. Its output never contains `&` or `=`,
      which is what lets `key=value` pairs be joined with `&` and read back. */
  function UrlEncode(s: string): (r: string)
    ensures forall i :: 0 <= i < |r| ==> FormSafe(r[i])
    ensures '&' !in r && '=' !in r
    decreases |s|
  {
    if |s| == 0 then "" else UrlEncodeChar(s[0]) + UrlEncode(s[1..])
  }

  /** A string made of unreserved characters only is its own encoding. */
  lemma {:induction false} UrlEncodeUnreserved(s: string)
    requires forall i :: 0 <= i < |s| ==> Unreserved(s[i])
    ensures UrlEncode(s) == s
    decreases |s|
  {
    if |s| > 0 {
      UrlEncodeUnreserved(s[1..]);
      assert [s[0]] + s[1..] == s;
    }
  }

  /** Reads a form-encoded value back to the bytes it escapes; `None` on a broken escape. */
  function UrlDecodeBytes(s: string): Option<seq<byte>>
    decreases |s|
  {
    if |s| == 0 then Some([])
    else if s[0] == '+' then Prepend([0x20], UrlDecodeBytes(s[1..]))
    else if s[0] == '%' then
      if |s| < 3 then None
      else match (HexValue(s[1]), HexValue(s[2]))
        case (Some(hi), Some(lo)) => Prepend([hi * 16 + lo], UrlDecodeBytes(s[3..]))
        case _ => None
    else if s[0] as int < 0x80 then Prepend([s[0] as int], UrlDecodeBytes(s[1..]))
    else None
  }

  function Prepend(p: seq<byte>, r: Option<seq<byte>>): Option<seq<byte>>
  {
    match r
    case None => None
    case Some(bs) => Some(p + bs)
  }

  lemma HexRoundTrip(b: byte)
    ensures HexValue(HexDigit(b / 16)) == Some(b / 16)
    ensures HexValue(HexDigit(b % 16)) == Some(b % 16)
    ensures (b / 16) * 16 + b % 16 == b
  {
  }

  lemma PrependPrepend(p: seq<byte>, q: seq<byte>, r: Option<seq<byte>>)
    ensures Prepend(p, Prepend(q, r)) == Prepend(p + q, r)
  {
    if r.Some? {
      AppendAssoc(p, q, r.value);
    }
  }

  lemma DecodeEscapedByte(b: byte, tail: string)
    ensures UrlDecodeBytes(['%', HexDigit(b / 16), HexDigit(b % 16)] + tail) == Prepend([b], UrlDecodeBytes(tail))
  {
    var head := ['%', HexDigit(b / 16), HexDigit(b % 16)];
    var s := head + tail;
    HexRoundTrip(b);
    assert s[0] == '%' && s[1] == HexDigit(b / 16) && s[2] == HexDigit(b % 16);
    AppendDrop(head, tail, 3);
  }

  lemma {:induction false} PercentRoundTrip(bs: seq<byte>, rest: string)
    ensures UrlDecodeBytes(PercentEscape(bs) + rest) == Prepend(bs, UrlDecodeBytes(rest))
    decreases |bs|
  {
    if |bs| == 0 {
      assert PercentEscape(bs) + rest == rest;
      if UrlDecodeBytes(rest).Some? {
        assert bs + UrlDecodeBytes(rest).value == UrlDecodeBytes(rest).value;
      }
    } else {
      var head := ['%', HexDigit(bs[0] / 16), HexDigit(bs[0] % 16)];
      AppendAssoc(head, PercentEscape(bs[1..]), rest);
      DecodeEscapedByte(bs[0], PercentEscape(bs[1..]) + rest);
      PercentRoundTrip(bs[1..], rest);
      PrependPrepend([bs[0]], bs[1..], UrlDecodeBytes(rest));
      ConsTail(bs);
    }
  }

  lemma UrlCharRoundTrip(c: char, rest: string)
    ensures UrlDecodeBytes(UrlEncodeChar(c) + rest) == Prepend(Utf8Char(c), UrlDecodeBytes(rest))
  {
    var s := UrlEncodeChar(c) + rest;
    if Unreserved(c) || c == ' ' {
      assert s[0] == (if c == ' ' then '+' else c) && s[1..] == rest;
    } else {
      PercentRoundTrip(Utf8Char(c), rest);
    }
  }

  /** Form encoding loses nothing: decoding it gives exactly the UTF-8 bytes of the input. */
  lemma {:induction false} UrlEncodeRoundTrip(s: string)
    ensures UrlDecodeBytes(UrlEncode(s)) == Some(Utf8(s))
    decreases |s|
  {
    if |s| > 0 {
      UrlEncodeRoundTrip(s[1..]);
      UrlCharRoundTrip(s[0], UrlEncode(s[1..]));
    }
  }

  // ------------------------------------------------------------ base64url

  /** The alphabet of section 5 of RFC 4648: A-Z, a-z, 0-9, `-`, `_`. */
  function Base64Char(i: int): (r: char)
    requires 0 <= i < 64
    ensures IsUpper(r) || IsLower(r) || IsDigit(r) || r == '-' || r == '_'
  {
    if i < 26 then ('A' as int + i) as char
    else if i < 52 then ('a' as int + i - 26) as char
    else if i < 62 then ('0' as int + i - 52) as char
    else if i == 62 then '-'
    else '_'
  }

  function Base64Value(c: char): (r: Option<int>)
    ensures r.Some? ==> 0 <= r.value < 64
  {
    if IsUpper(c) then Some(c as int - 'A' as int)
    else if IsLower(c) then Some(c as int - 'a' as int + 26)
    else if IsDigit(c) then Some(c as int - '0' as int + 52)
    else if c == '-' then Some(62)
    else if c == '_' then Some(63)
    else None
  }

  /** Characters that can appear in Guava's padded base64url output. */
  predicate Base64Safe(c: char)
  {
    IsUpper(c) || IsLower(c) || IsDigit(c) || c == '-' || c == '_' || c == '='
  }

  /** `base64Url().encode(bs)`: four characters per started group of three bytes, `=`-padded. */
  function Base64Url(bs: seq<byte>): (r: string)
    ensures forall i :: 0 <= i < |r| ==> Base64Safe(r[i])
    decreases |bs|
  {
    if |bs| < 3 then Base64Final(bs) else Quad(bs[0], bs[1], bs[2]) + Base64Url(bs[3..])
  }

  /** A full group: three bytes as four sextets, most significant bits first. */
  function Quad(b0: byte, b1: byte, b2: byte): (r: string)
    ensures |r| == 4 && r[3] != '='
    ensures forall i :: 0 <= i < |r| ==> Base64Safe(r[i])
  {
    [Base64Char(b0 / 4), Base64Char((b0 % 4) * 16 + b1 / 16),
     Base64Char((b1 % 16) * 4 + b2 / 64), Base64Char(b2 % 64)]
  }

  /** The last, short group: zero bits fill the final sextet and `=` the missing characters. */
  function Base64Final(bs: seq<byte>): (r: string)
    requires |bs| < 3
    ensures |r| == (if |bs| == 0 then 0 else 4)
    ensures forall i :: 0 <= i < |r| ==> Base64Safe(r[i])
  {
    if |bs| == 0 then ""
    else if |bs| == 1 then
      [Base64Char(bs[0] / 4), Base64Char((bs[0] % 4) * 16), '=', '=']
    else
      [Base64Char(bs[0] / 4), Base64Char((bs[0] % 4) * 16 + bs[1] / 16),
       Base64Char((bs[1] % 16) * 4), '=']
  }

  /** Three bytes from four sextet characters. */
  function DecodeQuad(c0: char, c1: char, c2: char, c3: char): Option<seq<byte>>
  {
    match (Base64Value(c0), Base64Value(c1), Base64Value(c2), Base64Value(c3))
    case (Some(v0), Some(v1), Some(v2), Some(v3)) =>
      Some([v0 * 4 + v1 / 16, (v1 % 16) * 16 + v2 / 4, (v2 % 4) * 64 + v3])
    case _ => None
  }

  /** One or two bytes from a final group padded with `=` (`c2` is `=` for one byte). */
  function DecodePadded(c0: char, c1: char, c2: char): Option<seq<byte>>
  {
    match (Base64Value(c0), Base64Value(c1), Base64Value(c2))
    case (Some(v0), Some(v1), Some(v2)) => Some([v0 * 4 + v1 / 16, (v1 % 16) * 16 + v2 / 4])
    case (Some(v0), Some(v1), None) => if c2 == '=' then Some([v0 * 4 + v1 / 16]) else None
    case _ => None
  }

  function Base64UrlDecode(s: string): Option<seq<byte>>
    decreases |s|
  {
    if |s| == 0 then Some([])
    else if |s| < 4 then None
    else if |s| == 4 && s[3] == '=' then DecodePadded(s[0], s[1], s[2])
    else
      match DecodeQuad(s[0], s[1], s[2], s[3])
      case None => None
      case Some(group) => Prepend(group, Base64UrlDecode(s[4..]))
  }

  lemma Base64CharValue(i: int)
    requires 0 <= i < 64
    ensures Base64Value(Base64Char(i)) == Some(i)
  {
  }

  lemma Base64GroupRoundTrip(b0: byte, b1: byte, b2: byte)
    ensures (b0 / 4) * 4 + ((b0 % 4) * 16 + b1 / 16) / 16 == b0
    ensures (((b0 % 4) * 16 + b1 / 16) % 16) * 16 + ((b1 % 16) * 4 + b2 / 64) / 4 == b1
    ensures (((b1 % 16) * 4 + b2 / 64) % 4) * 64 + b2 % 64 == b2
  {
    var x := (b0 % 4) * 16 + b1 / 16;
    assert x / 16 == b0 % 4 && x % 16 == b1 / 16;
    var y := (b1 % 16) * 4 + b2 / 64;
    assert y / 4 == b1 % 16 && y % 4 == b2 / 64;
  }

  lemma Base64QuadRoundTrip(b0: byte, b1: byte, b2: byte)
    ensures DecodeQuad(Quad(b0, b1, b2)[0], Quad(b0, b1, b2)[1], Quad(b0, b1, b2)[2], Quad(b0, b1, b2)[3])
            == Some([b0, b1, b2])
  {
    Base64CharValue(b0 / 4);
    Base64CharValue((b0 % 4) * 16 + b1 / 16);
    Base64CharValue((b1 % 16) * 4 + b2 / 64);
    Base64CharValue(b2 % 64);
    Base64GroupRoundTrip(b0, b1, b2);
  }

  lemma Base64DecodeLeadingQuad(q: string, tail: string)
    requires |q| == 4 && q[3] != '=' && DecodeQuad(q[0], q[1], q[2], q[3]).Some?
    ensures Base64UrlDecode(q + tail) == Prepend(DecodeQuad(q[0], q[1], q[2], q[3]).value, Base64UrlDecode(tail))
  {
    var s := q + tail;
    assert s[0] == q[0] && s[1] == q[1] && s[2] == q[2] && s[3] == q[3];
    assert s[4..] == tail;
  }

  /** Four characters for every started group of three bytes. */
  lemma {:induction false} Base64UrlLength(bs: seq<byte>)
    ensures |Base64Url(bs)| == 4 * ((|bs| + 2) / 3)
    decreases |bs|
  {
    if |bs| >= 3 {
      Base64UrlLength(bs[3..]);
      assert (|bs| + 2) / 3 == (|bs[3..]| + 2) / 3 + 1;
    }
  }

  lemma Base64UrlLeadingQuad(bs: seq<byte>)
    requires |bs| >= 3
    ensures Base64Url(bs) == Quad(bs[0], bs[1], bs[2]) + Base64Url(bs[3..])
  {
  }

  lemma Base64FullGroup(bs: seq<byte>)
    requires |bs| >= 3
    ensures Base64UrlDecode(Base64Url(bs)) == Prepend([bs[0], bs[1], bs[2]], Base64UrlDecode(Base64Url(bs[3..])))
  {
    Base64UrlLeadingQuad(bs);
    Base64DecodeGroup(bs[0], bs[1], bs[2], Base64Url(bs[3..]));
  }

  lemma Base64DecodeGroup(b0: byte, b1: byte, b2: byte, tail: string)
    ensures Base64UrlDecode(Quad(b0, b1, b2) + tail) == Prepend([b0, b1, b2], Base64UrlDecode(tail))
  {
    Base64QuadRoundTrip(b0, b1, b2);
    Base64DecodeLeadingQuad(Quad(b0, b1, b2), tail);
  }

  lemma Base64FinalRoundTrip(bs: seq<byte>)
    requires 0 < |bs| < 3
    ensures Base64UrlDecode(Base64Final(bs)) == Some(bs)
  {
    if |bs| == 1 {
      Base64CharValue(bs[0] / 4);
      Base64CharValue((bs[0] % 4) * 16);
      Base64GroupRoundTrip(bs[0], 0, 0);
      assert [bs[0]] == bs;
    } else {
      Base64CharValue(bs[0] / 4);
      Base64CharValue((bs[0] % 4) * 16 + bs[1] / 16);
      Base64CharValue((bs[1] % 16) * 4);
      Base64GroupRoundTrip(bs[0], bs[1], 0);
      assert [bs[0], bs[1]] == bs;
    }
  }

  /** Base64url encoding loses nothing: the decoder recovers every byte. */
  lemma {:induction false} Base64UrlRoundTrip(bs: seq<byte>)
    ensures Base64UrlDecode(Base64Url(bs)) == Some(bs)
    decreases |bs|
  {
    if |bs| == 0 {
    } else if |bs| < 3 {
      Base64FinalRoundTrip(bs);
    } else {
      Base64FullGroup(bs);
      Base64UrlRoundTrip(bs[3..]);
      HeadThree(bs);
    }
  }
}

=== FILE: interceptor.dfy ===
/**
 The request filter: resolve the operation's requirement alternatives, try them
 in order until one applies completely, and fall back to the configured default
 authentication when the operation declares no requirement at all.

 Java's exceptions become the `fault` of a `Step`. Only a `NullPointerException`
 makes an alternative give way to the next one; any other exception leaves the
 filter. Headers an alternative added before it failed stay on the builder, and
 the token cache keeps whatever happened to it.
 */
module Interceptor {
  import opened JavaText
  import opened Encoding
  import opened Model
  import opened Resolver
  import opened Credentials
  import opened TokenCache

  /** The header carrying the OpenAPI path of the operation a request was built for. */
  const PathHeader := "X-Trino-OpenAPI-Path"

  /** A builder change that cannot touch the token cache, as a step. */
  function Lift(r: Result<Request>, b: Request, c: Cache): (s: Step)
    ensures s.cache == c
    ensures r.Ok? ==> s == Step(r.value, c, None)
    ensures r.Err? ==> s == Step(b, c, Some(r.fault))
  {
    match r
    case Ok(b') => Step(b', c, None)
    case Err(f) => Step(b, c, Some(f))
  }

  /** What one step may do to the builder: append headers, rewrite the query. */
  predicate Extends(b: Request, b': Request, uri: Uri)
  {
    b'.httpMethod == b.httpMethod
    && |b.headers| <= |b'.headers| && b'.headers[..|b.headers|] == b.headers
    && (SameExceptQuery(b.uri, uri) ==> SameExceptQuery(b'.uri, uri))
  }

  lemma ExtendsTrans(b0: Request, b1: Request, b2: Request, uri: Uri)
    requires Extends(b0, b1, uri) && Extends(b1, b2, uri)
    ensures Extends(b0, b2, uri)
  {
    assert b2.headers[..|b0.headers|] == b2.headers[..|b1.headers|][..|b0.headers|];
  }

  /** The body of the `forEach` lambda for one entry `name`: look the scheme up and
      dispatch on its type. A missing scheme or type is a `NullPointerException`;
      OpenID Connect and mutual TLS are rejected with an `IllegalArgumentException`. */
  function ApplyScheme(ctx: Context, uri: Uri, b: Request, c: Cache, name: string): (r: Step)
    ensures Extends(b, r.builder, uri)
    ensures r.fault.Some? ==> r.builder == b
    ensures c.fetches <= r.cache.fetches
    ensures name !in ctx.spec.schemes ==> r == Step(b, c, Some(NullPointer(UnknownScheme(name))))
    ensures name in ctx.spec.schemes && ctx.spec.schemes[name].kind == None ==>
      r == Step(b, c, Some(NullPointer(NullSchemeType)))
    ensures name in ctx.spec.schemes && ctx.spec.schemes[name].kind in {Some(OPENIDCONNECT), Some(MUTUALTLS)} ==>
      r == Step(b, c, Some(UnsupportedSchemeType(ctx.spec.schemes[name].kind.value)))
    ensures name in ctx.spec.schemes && ctx.spec.schemes[name].kind == Some(APIKEY) ==>
      r == Lift(ApplyApiKeyAuth(ctx.cfg, b, uri, ctx.spec.schemes[name]), b, c)
    ensures name in ctx.spec.schemes && ctx.spec.schemes[name].kind == Some(HTTP) ==>
      r == Lift(ApplyHttpAuth(ctx.cfg, b, ctx.spec.schemes[name].scheme), b, c)
    ensures name in ctx.spec.schemes && ctx.spec.schemes[name].kind == Some(OAUTH2) ==>
      r == ApplyOAuth(ctx, b, c)
    ensures r.cache != c ==> name in ctx.spec.schemes && ctx.spec.schemes[name].kind == Some(OAUTH2)
  {
    if name !in ctx.spec.schemes then Step(b, c, Some(NullPointer(UnknownScheme(name))))
    else
      var scheme := ctx.spec.schemes[name];
      match scheme.kind
      case None => Step(b, c, Some(NullPointer(NullSchemeType)))
      case Some(APIKEY) => Lift(ApplyApiKeyAuth(ctx.cfg, b, uri, scheme), b, c)
      case Some(HTTP) => Lift(ApplyHttpAuth(ctx.cfg, b, scheme.scheme), b, c)
      case Some(OAUTH2) => ApplyOAuth(ctx, b, c)
      case Some(k) => Step(b, c, Some(UnsupportedSchemeType(k)))
  }

  /** `requirement.forEach(...)`: apply the entries in order and stop at the first
      exception, keeping what the earlier entries did. */
  function TryAlternative(ctx: Context, uri: Uri, b: Request, c: Cache, req: Requirement): (r: Step)
    ensures Extends(b, r.builder, uri)
    ensures c.fetches <= r.cache.fetches
    ensures |req| == 0 ==> r == Step(b, c, None)
    ensures |req| == 1 ==> r == ApplyScheme(ctx, uri, b, c, req[0].name)
    decreases |req|
  {
    if |req| == 0 then Step(b, c, None)
    else
      var s := ApplyScheme(ctx, uri, b, c, req[0].name);
      if s.fault.Some? then s
      else
        var r := TryAlternative(ctx, uri, s.builder, s.cache, req[1..]);
        ExtendsTrans(b, s.builder, r.builder, uri);
        r
  }

  /** The loop of `applyAuthFilters` over the alternatives: a `NullPointerException`
      moves on to the next alternative from wherever the failed one left the builder
      and the cache; completion or any other exception ends the loop. */
  function TryAll(ctx: Context, uri: Uri, b: Request, c: Cache, alts: seq<Requirement>): (r: Step)
    ensures !Swallowed(r.fault)
    ensures Extends(b, r.builder, uri)
    ensures c.fetches <= r.cache.fetches
    ensures |alts| == 0 ==> r == Step(b, c, None)
    ensures |alts| > 0 && !Swallowed(TryAlternative(ctx, uri, b, c, alts[0]).fault) ==>
      r == TryAlternative(ctx, uri, b, c, alts[0])
    decreases |alts|
  {
    if |alts| == 0 then Step(b, c, None)
    else
      var s := TryAlternative(ctx, uri, b, c, alts[0]);
      if Swallowed(s.fault) then
        var r := TryAll(ctx, uri, s.builder, s.cache, alts[1..]);
        ExtendsTrans(b, s.builder, r.builder, uri);
        r
      else s
  }

  /** `applyAuthFilters(builder, requirements, uri)`: nothing for a `null` list. */
  function ApplyAuthFilters(ctx: Context, uri: Uri, b: Request, c: Cache, reqs: Requirements): (r: Step)
    ensures !Swallowed(r.fault)
    ensures Extends(b, r.builder, uri)
    ensures reqs.None? ==> r == Step(b, c, None)
    ensures reqs.Some? ==> r == TryAll(ctx, uri, b, c, reqs.value)
  {
    match reqs
    case None => Step(b, c, None)
    case Some(alts) => TryAll(ctx, uri, b, c, alts)
  }

  /** True when the default authentication applies: no requirement list, or an empty one. */
  predicate NeedsDefault(reqs: Requirements)
  {
    reqs.None? || |reqs.value| == 0
  }

  /** The API key scheme the default fallback builds: a header, name left to the configuration. */
  const DefaultApiKeyScheme := SecurityScheme(None, Some(HEADER), None, None)

  /** The default fallback of `filterRequest`, run outside the `try`, so that even a
      `NullPointerException` from it leaves the filter. */
  function ApplyDefault(ctx: Context, uri: Uri, b: Request, c: Cache): (r: Step)
    ensures Extends(b, r.builder, uri)
    ensures r.fault.Some? ==> r.builder == b
    ensures ctx.cfg.defaultType == NONE ==> r == Step(b, c, None)
    ensures ctx.cfg.defaultType == API_KEY ==> r == Lift(ApplyApiKeyAuth(ctx.cfg, b, uri, DefaultApiKeyScheme), b, c)
    ensures ctx.cfg.defaultType == HTTP_AUTH ==> r == Lift(ApplyHttpAuth(ctx.cfg, b, None), b, c)
    ensures ctx.cfg.defaultType == OAUTH ==> r == ApplyOAuth(ctx, b, c)
  {
    match ctx.cfg.defaultType
    case NONE => Step(b, c, None)
    case API_KEY => Lift(ApplyApiKeyAuth(ctx.cfg, b, uri, DefaultApiKeyScheme), b, c)
    case HTTP_AUTH => Lift(ApplyHttpAuth(ctx.cfg, b, None), b, c)
    case OAUTH => ApplyOAuth(ctx, b, c)
  }

  /** `filterRequest(request)`. The builder starts as a copy of the request; the result
      is the built request, or the exception the filter throws. */
  function FilterRequest(ctx: Context, request: Request, c: Cache): (r: Step)
    ensures Extends(request, r.builder, request.uri)
    ensures HeaderValue(request.headers, PathHeader).None? ==>
      r == Step(request, c, Some(NullPointer(NullPath)))
    ensures Swallowed(r.fault) ==>
      HeaderValue(request.headers, PathHeader).None? || ctx.cfg.defaultType != NONE
    ensures HeaderValue(request.headers, PathHeader).Some? ==>
      var reqs := GetRequirements(ctx.spec, HeaderValue(request.headers, PathHeader), request.httpMethod).value;
      if NeedsDefault(reqs) then r == ApplyDefault(ctx, request.uri, request, c)
      else r == TryAll(ctx, request.uri, request, c, reqs.value)
  {
    match GetRequirements(ctx.spec, HeaderValue(request.headers, PathHeader), request.httpMethod)
    case Err(f) => Step(request, c, Some(f))
    case Ok(reqs) =>
      var s := ApplyAuthFilters(ctx, request.uri, request, c, reqs);
      if s.fault.None? && NeedsDefault(reqs) && ctx.cfg.defaultType != NONE then
        var r := ApplyDefault(ctx, request.uri, s.builder, s.cache);
        ExtendsTrans(request, s.builder, r.builder, request.uri);
        r
      else s
  }

  /** An alternative whose first entry names no known scheme. */
  predicate Unusable(spec: Spec, req: Requirement)
  {
    |req| > 0 && req[0].name !in spec.schemes
  }

  /** Alternatives that name an unknown scheme first fail before touching anything, so a
      run of them in front of the others changes nothing. */
  lemma {:induction false} UnusableSkipped(ctx: Context, uri: Uri, b: Request, c: Cache,
                                            skipped: seq<Requirement>, rest: seq<Requirement>)
    requires forall k :: 0 <= k < |skipped| ==> Unusable(ctx.spec, skipped[k])
    ensures TryAll(ctx, uri, b, c, skipped + rest) == TryAll(ctx, uri, b, c, rest)
    decreases |skipped|
  {
    if |skipped| > 0 {
      var alts := skipped + rest;
      assert alts[0] == skipped[0] && Unusable(ctx.spec, alts[0]);
      assert TryAlternative(ctx, uri, b, c, alts[0]) == Step(b, c, Some(NullPointer(UnknownScheme(alts[0][0].name))));
      assert alts[1..] == skipped[1..] + rest;
      UnusableSkipped(ctx, uri, b, c, skipped[1..], rest);
    } else {
      assert skipped + rest == rest;
    }
  }

  /** Fallback: when the first alternative names an unknown scheme, the result is what
      the second alternative alone gives. */
  lemma FallBackToSecond(ctx: Context, uri: Uri, b: Request, c: Cache, first: Requirement, second: Requirement)
    requires Unusable(ctx.spec, first)
    ensures TryAll(ctx, uri, b, c, [first, second]) == TryAll(ctx, uri, b, c, [second])
  {
    UnusableSkipped(ctx, uri, b, c, [first], [second]);
    assert [first] + [second] == [first, second];
  }

  /** An alternative with no entries is met at once: nothing after it is tried. */
  lemma EmptyAlternativeWins(ctx: Context, uri: Uri, b: Request, c: Cache,
                             skipped: seq<Requirement>, rest: seq<Requirement>)
    requires forall k :: 0 <= k < |skipped| ==> Unusable(ctx.spec, skipped[k])
    ensures TryAll(ctx, uri, b, c, skipped + [[]] + rest) == Step(b, c, None)
  {
    UnusableSkipped(ctx, uri, b, c, skipped, [[]] + rest);
    assert skipped + [[]] + rest == skipped + ([[]] + rest);
  }

  /** Applying entries one after the other: a requirement split in two is the first part
      followed, unless it failed, by the second part from where the first stopped. */
  lemma {:induction false} AlternativeSplits(ctx: Context, uri: Uri, b: Request, c: Cache,
                                             r1: Requirement, r2: Requirement)
    ensures TryAlternative(ctx, uri, b, c, r1).fault.Some? ==>
      TryAlternative(ctx, uri, b, c, r1 + r2) == TryAlternative(ctx, uri, b, c, r1)
    ensures TryAlternative(ctx, uri, b, c, r1).fault.None? ==>
      TryAlternative(ctx, uri, b, c, r1 + r2)
        == TryAlternative(ctx, uri, TryAlternative(ctx, uri, b, c, r1).builder, TryAlternative(ctx, uri, b, c, r1).cache, r2)
    decreases |r1|
  {
    if |r1| == 0 {
      assert r1 + r2 == r2;
    } else {
      var s := ApplyScheme(ctx, uri, b, c, r1[0].name);
      assert (r1 + r2)[0] == r1[0];
      assert (r1 + r2)[1..] == r1[1..] + r2;
      if s.fault.None? {
        AlternativeSplits(ctx, uri, s.builder, s.cache, r1[1..], r2);
      }
    }
  }

  /** An alternative that fails part-way keeps the headers its earlier entries added:
      the next alternative starts from them. */
  lemma AbortedHeadersStay(ctx: Context, uri: Uri, b: Request, c: Cache, good: string, missing: string)
    requires good in ctx.spec.schemes && ctx.spec.schemes[good].kind == Some(HTTP)
    requires |EffectiveScheme(ctx.cfg, ctx.spec.schemes[good].scheme)| > 0
    requires missing !in ctx.spec.schemes
    ensures TryAlternative(ctx, uri, b, c, [SchemeUse(good, []), SchemeUse(missing, [])]).fault
              == Some(NullPointer(UnknownScheme(missing)))
    ensures TryAlternative(ctx, uri, b, c, [SchemeUse(good, []), SchemeUse(missing, [])]).builder
              == AddHeader(b, "Authorization", HttpAuthValue(ctx.cfg, ctx.spec.schemes[good].scheme).value)
  {
    var req := [SchemeUse(good, []), SchemeUse(missing, [])];
    assert req[1..] == [SchemeUse(missing, [])];
  }

  /** Any `NullPointerException` moves on: the rest of the alternatives run on the
      builder and cache the failed one left behind, not on the ones it started from. */
  lemma NullFailureMovesOn(ctx: Context, uri: Uri, b: Request, c: Cache, first: Requirement, rest: seq<Requirement>)
    requires Swallowed(TryAlternative(ctx, uri, b, c, first).fault)
    ensures TryAll(ctx, uri, b, c, [first] + rest)
      == TryAll(ctx, uri, TryAlternative(ctx, uri, b, c, first).builder, TryAlternative(ctx, uri, b, c, first).cache, rest)
  {
    var alts := [first] + rest;
    assert alts[0] == first && alts[1..] == rest;
  }

  /** The header an aborted alternative added is still on the builder when the next
      alternative starts. */
  lemma AbortedHeadersReachNext(ctx: Context, uri: Uri, b: Request, c: Cache, good: string, missing: string,
                                rest: seq<Requirement>)
    requires good in ctx.spec.schemes && ctx.spec.schemes[good].kind == Some(HTTP)
    requires |EffectiveScheme(ctx.cfg, ctx.spec.schemes[good].scheme)| > 0
    requires missing !in ctx.spec.schemes
    ensures TryAll(ctx, uri, b, c, [[SchemeUse(good, []), SchemeUse(missing, [])]] + rest)
      == TryAll(ctx, uri, AddHeader(b, "Authorization", HttpAuthValue(ctx.cfg, ctx.spec.schemes[good].scheme).value), c, rest)
  {
    AbortedHeadersStay(ctx, uri, b, c, good, missing);
    NullFailureMovesOn(ctx, uri, b, c, [SchemeUse(good, []), SchemeUse(missing, [])], rest);
  }

  /** An API key whose name or value is not configured is a `NullPointerException`
      before the builder is touched, so the next alternatives decide. */
  lemma MissingKeyFallsThrough(ctx: Context, uri: Uri, b: Request, c: Cache, name: string, rest: seq<Requirement>)
    requires name in ctx.spec.schemes && ctx.spec.schemes[name].kind == Some(APIKEY)
    requires ApiKey(ctx.cfg, ctx.spec.schemes[name]).Err?
    ensures TryAll(ctx, uri, b, c, [[SchemeUse(name, [])]] + rest) == TryAll(ctx, uri, b, c, rest)
  {
    var alt := [SchemeUse(name, [])];
    assert alt[1..] == [];
    assert TryAlternative(ctx, uri, b, c, alt) == Step(b, c, Some(ApiKey(ctx.cfg, ctx.spec.schemes[name]).fault));
    NullFailureMovesOn(ctx, uri, b, c, alt, rest);
  }

  /** An empty HTTP scheme throws `StringIndexOutOfBoundsException`, which the loop does
      not catch: later alternatives are never tried. */
  lemma EmptySchemeStops(ctx: Context, uri: Uri, b: Request, c: Cache, name: string, rest: seq<Requirement>)
    requires name in ctx.spec.schemes && ctx.spec.schemes[name].kind == Some(HTTP)
    requires |EffectiveScheme(ctx.cfg, ctx.spec.schemes[name].scheme)| == 0
    ensures TryAll(ctx, uri, b, c, [[SchemeUse(name, [])]] + rest) == Step(b, c, Some(EmptyScheme))
  {
    var alts := [[SchemeUse(name, [])]] + rest;
    assert alts[0] == [SchemeUse(name, [])];
    assert alts[0][1..] == [];
  }

  /** A failed call to the token endpoint is not a `NullPointerException`: it ends the
      loop with the builder as it was and the call counted. */
  lemma OAuthFetchFailureStops(ctx: Context, uri: Uri, b: Request, c: Cache, name: string, rest: seq<Requirement>)
    requires name in ctx.spec.schemes && ctx.spec.schemes[name].kind == Some(OAUTH2)
    requires !(c.token.Memoized? && IsFresh(c.token.entry, ctx.now))
    requires GetToken(ctx, c.fetches).result == Err(FetchFailed)
    ensures TryAll(ctx, uri, b, c, [[SchemeUse(name, [])]] + rest)
      == Step(b, Cache(c.token, c.fetches + 1), Some(FetchFailed))
  {
    FetchFailureEscapes(ctx, c);
    var alts := [[SchemeUse(name, [])]] + rest;
    assert alts[0] == [SchemeUse(name, [])];
    assert alts[0][1..] == [];
  }

  /** An exception other than a `NullPointerException` ends the loop: later alternatives,
      however usable, are never tried. */
  lemma UnsupportedTypeStops(ctx: Context, uri: Uri, b: Request, c: Cache, name: string, rest: seq<Requirement>)
    requires name in ctx.spec.schemes && ctx.spec.schemes[name].kind == Some(OPENIDCONNECT)
    ensures TryAll(ctx, uri, b, c, [[SchemeUse(name, [])]] + rest)
              == Step(b, c, Some(UnsupportedSchemeType(OPENIDCONNECT)))
  {
    var alts := [[SchemeUse(name, [])]] + rest;
    assert alts[0] == [SchemeUse(name, [])];
    assert alts[0][1..] == [];
  }

  /** An OAuth2 entry that cannot reach the token endpoint (no grant type, or no endpoint)
      fails with a `NullPointerException` before any call, so the filter moves on to the
      next alternative with nothing changed. */
  lemma OAuthWithoutEndpointFallsThrough(ctx: Context, uri: Uri, b: Request, c: Cache,
                                         name: string, rest: seq<Requirement>)
    requires name in ctx.spec.schemes && ctx.spec.schemes[name].kind == Some(OAUTH2)
    requires !CanFetch(ctx.cfg) && !(c.token.Memoized? && IsFresh(c.token.entry, ctx.now))
    ensures TryAll(ctx, uri, b, c, [[SchemeUse(name, [])]] + rest) == TryAll(ctx, uri, b, c, rest)
  {
    NoFetchWithoutEndpoint(ctx, c);
    var alts := [[SchemeUse(name, [])]] + rest;
    assert alts[0] == [SchemeUse(name, [])];
    assert Swallowed(TryAlternative(ctx, uri, b, c, alts[0]).fault);
    assert TryAlternative(ctx, uri, b, c, alts[0]).builder == b;
    assert alts[1..] == rest;
  }

  /** A declared, non-empty list never brings in the default authentication. */
  lemma NoDefaultForDeclared(ctx: Context, request: Request, c: Cache)
    requires HeaderValue(request.headers, PathHeader).Some?
    requires GetRequirements(ctx.spec, HeaderValue(request.headers, PathHeader), request.httpMethod).value.Some?
    requires |GetRequirements(ctx.spec, HeaderValue(request.headers, PathHeader), request.httpMethod).value.value| > 0
    ensures FilterRequest(ctx, request, c)
      == TryAll(ctx, request.uri, request, c,
                GetRequirements(ctx.spec, HeaderValue(request.headers, PathHeader), request.httpMethod).value.value)
  {
  }

  /** With no requirement and the default type `NONE` the request leaves unchanged. */
  lemma NoneLeavesRequest(ctx: Context, request: Request, c: Cache)
    requires HeaderValue(request.headers, PathHeader).Some?
    requires NeedsDefault(GetRequirements(ctx.spec, HeaderValue(request.headers, PathHeader), request.httpMethod).value)
    requires ctx.cfg.defaultType == NONE
    ensures FilterRequest(ctx, request, c) == Step(request, c, None)
  {
  }

  /** With no requirement and the default type `API_KEY`, a configured key name and value
      go into one header named after the key. */
  lemma DefaultApiKeyHeader(ctx: Context, request: Request, c: Cache, name: string, value: string)
    requires HeaderValue(request.headers, PathHeader).Some?
    requires NeedsDefault(GetRequirements(ctx.spec, HeaderValue(request.headers, PathHeader), request.httpMethod).value)
    requires ctx.cfg.defaultType == API_KEY
    requires ctx.cfg.apiKeyName == Some(name) && |ctx.cfg.apiKeys| == 0 && ctx.cfg.apiKeyValue == Some(value)
    ensures FilterRequest(ctx, request, c) == Step(AddHeader(request, name, value), c, None)
  {
  }

  /** With no requirement and the default type `API_KEY` but no key name configured, the
      `NullPointerException` leaves the filter instead of being ignored. */
  lemma DefaultFailureEscapes(ctx: Context, request: Request, c: Cache)
    requires HeaderValue(request.headers, PathHeader).Some?
    requires NeedsDefault(GetRequirements(ctx.spec, HeaderValue(request.headers, PathHeader), request.httpMethod).value)
    requires ctx.cfg.defaultType == API_KEY && ctx.cfg.apiKeyName.None?
    ensures FilterRequest(ctx, request, c) == Step(request, c, Some(NullPointer(NoApiKeyName)))
  {
  }

  /** A query key is appended after the existing query with `&`, its value form-encoded. */
  lemma QueryKeyAppended(cfg: Config, b: Request, uri: Uri, scheme: SecurityScheme, q: string)
    requires uri.query == Some(q) && scheme.location == Some(QUERY)
    requires ApplyApiKeyAuth(cfg, b, uri, scheme).Ok?
    ensures ApplyApiKeyAuth(cfg, b, uri, scheme).value.uri.query
      == Some(q + "&" + ApiKeyName(cfg, scheme).value + "="
              + UrlEncode(ApiKeyValue(cfg, ApiKeyName(cfg, scheme).value).value))
  {
    var name := ApiKeyName(cfg, scheme).value;
    var pair := EncodePair(name, ApiKeyValue(cfg, name).value);
    assert pair == name + "=" + UrlEncode(ApiKeyValue(cfg, name).value);
    assert QueryWith(Some(q), pair) == q + "&" + pair;
    assert ApplyApiKeyAuth(cfg, b, uri, scheme) == Ok(b.(uri := uri.(query := Some(QueryWith(Some(q), pair)))));
    assert q + "&" + pair == q + "&" + name + "=" + UrlEncode(ApiKeyValue(cfg, name).value);
  }

  /** Query keys do not accumulate: each rebuild starts from the request's original URI,
      so a second query key replaces the query the first one wrote. */
  lemma QueryKeysDoNotAccumulate(cfg: Config, b: Request, uri: Uri, first: SecurityScheme, second: SecurityScheme)
    requires first.location == Some(QUERY) && second.location == Some(QUERY)
    requires ApplyApiKeyAuth(cfg, b, uri, first).Ok?
    ensures ApplyApiKeyAuth(cfg, ApplyApiKeyAuth(cfg, b, uri, first).value, uri, second)
              == ApplyApiKeyAuth(cfg, b, uri, second)
  {
  }

  /** The pet store request: `GET /pets` whose only requirement is the header key
      `X-Api-Key`, with the key value "secret123" configured, gains exactly that header. */
  lemma PetStoreExample(ctx: Context, request: Request, c: Cache)
    requires request.httpMethod == GET
    requires request.headers == [Header(PathHeader, "/pets")]
    requires ctx.spec.pathRequirements == map["/pets" := map[GET := Some([[SchemeUse("apiKeyAuth", [])]])]]
    requires ctx.spec.schemes == map["apiKeyAuth" := SecurityScheme(Some(APIKEY), Some(HEADER), Some("X-Api-Key"), None)]
    requires |ctx.cfg.apiKeys| == 0 && ctx.cfg.apiKeyValue == Some("secret123")
    ensures FilterRequest(ctx, request, c)
      == Step(AddHeader(request, "X-Api-Key", "secret123"), c, None)
  {
    var reqs := [[SchemeUse("apiKeyAuth", [])]];
    assert HeaderValue(request.headers, PathHeader) == Some("/pets");
    assert GetRequirements(ctx.spec, Some("/pets"), GET) == Ok(Some(reqs));
    var scheme := ctx.spec.schemes["apiKeyAuth"];
    assert ApiKeyName(ctx.cfg, scheme) == Ok("X-Api-Key");
    assert ApiKeyValue(ctx.cfg, "X-Api-Key") == Ok("secret123");
    var added := AddHeader(request, "X-Api-Key", "secret123");
    assert ApplyApiKeyAuth(ctx.cfg, request, request.uri, scheme) == Ok(added);
    assert ApplyScheme(ctx, request.uri, request, c, "apiKeyAuth") == Step(added, c, None);
    assert reqs[0][1..] == [];
    assert TryAlternative(ctx, request.uri, request, c, reqs[0]) == Step(added, c, None);
    assert TryAll(ctx, request.uri, request, c, reqs) == Step(added, c, None);
    assert ApplyAuthFilters(ctx, request.uri, request, c, Some(reqs)) == Step(added, c, None);
    assert !NeedsDefault(Some(reqs));
  }
}

=== FILE: model.dfy ===
/**
 The values the authentication filter works on: the security part of the
 OpenAPI document, the connector configuration, the outgoing request, the
 token endpoint's reply, the exceptions the filter can raise, and the token
 cache with its fetch counter.
 */
module Model {
  import opened JavaText

  /** `PathItem.HttpMethod`. */
  datatype HttpMethod = GET | PUT | POST | DELETE | OPTIONS | HEAD | PATCH | TRACE

  /** `SecurityScheme.Type`. */
  datatype SchemeType = APIKEY | HTTP | OAUTH2 | OPENIDCONNECT | MUTUALTLS

  /** `SecurityScheme.In`: where an API key travels. */
  datatype Location = COOKIE | HEADER | QUERY

  /** One entry of the document's scheme table; every attribute may be absent (`null`). */
  datatype SecurityScheme = SecurityScheme(
    kind: Option<SchemeType>,
    location: Option<Location>,
    name: Option<string>,
    scheme: Option<string>)

  /** One `name: [scopes]` entry of a security requirement. Scopes are carried but unused. */
  datatype SchemeUse = SchemeUse(name: string, scopes: seq<string>)

  /** A security requirement: its entries in insertion order (a `LinkedHashMap`). */
  type Requirement = seq<SchemeUse>

  /** A list of alternative requirements, or `null`. */
  type Requirements = Option<seq<Requirement>>

  /** The security part of the parsed OpenAPI document. */
  datatype Spec = Spec(
    pathRequirements: map<string, map<HttpMethod, Requirements>>,
    requirements: Requirements,
    schemes: map<string, SecurityScheme>)

  /** `AuthenticationType`: what to do when an operation declares no requirement.
      `HTTP_AUTH` is the Java constant `HTTP`, renamed apart from `SchemeType.HTTP`. */
  datatype AuthenticationType = NONE | API_KEY | HTTP_AUTH | OAUTH

  /** The connector configuration the filter reads (all optional values may be `null`). */
  datatype Config = Config(
    defaultType: AuthenticationType,
    defaultScheme: string,
    username: Option<string>,
    password: Option<string>,
    bearerToken: Option<string>,
    apiKeys: map<string, string>,
    apiKeyName: Option<string>,
    apiKeyValue: Option<string>,
    grantType: Option<string>,
    tokenEndpoint: Option<string>,
    clientId: Option<string>,
    clientSecret: Option<string>)

  /** The five components `java.net.URI` is rebuilt from. */
  datatype Uri = Uri(
    scheme: Option<string>,
    authority: Option<string>,
    path: Option<string>,
    query: Option<string>,
    fragment: Option<string>)

  datatype Header = Header(name: string, value: string)

  /** An outgoing request, which is also the state of a `Request.Builder` copied from it. */
  datatype Request = Request(httpMethod: HttpMethod, uri: Uri, headers: seq<Header>)

  /** `Request.Builder.addHeader`: appends, never replaces. */
  function AddHeader(b: Request, name: string, value: string): (r: Request)
    ensures r.httpMethod == b.httpMethod && r.uri == b.uri
    ensures r.headers == b.headers + [Header(name, value)]
  {
    b.(headers := b.headers + [Header(name, value)])
  }

  /** The first value of header `name`, as `Request.getHeader` returns it. */
  function HeaderValue(headers: seq<Header>, name: string): (r: Option<string>)
    ensures r.Some? <==> exists i :: 0 <= i < |headers| && headers[i].name == name
    ensures r.Some? ==> exists i :: 0 <= i < |headers| && headers[i] == Header(name, r.value)
                                    && forall j :: 0 <= j < i ==> headers[j].name != name
    decreases |headers|
  {
    if |headers| == 0 then None
    else if headers[0].name == name then Some(headers[0].value)
    else
      var r := HeaderValue(headers[1..], name);
      assert forall i :: 0 < i < |headers| ==> headers[i] == headers[1..][i - 1];
      if r.Some? then
        var i :| 0 <= i < |headers[1..]| && headers[1..][i] == Header(name, r.value)
                 && forall j :: 0 <= j < i ==> headers[1..][j].name != name;
        assert headers[i + 1] == Header(name, r.value);
        assert forall j :: 0 <= j < i + 1 ==> headers[j].name != name;
        r
      else r
  }

  /** The token endpoint's JSON reply. */
  datatype TokenResponse = TokenResponse(
    tokenType: Option<string>,
    accessToken: Option<string>,
    expiresInSeconds: int)

  /** The POST the filter sends to the token endpoint (its URI is not modelled). */
  datatype TokenPost = TokenPost(contentType: string, authorization: string, body: string)

  /** The token endpoint as the filter sees it: the reply to the `n`-th call, or `None`
      when the transport or the JSON decoding fails. */
  type Oracle = (TokenPost, nat) -> Option<TokenResponse>

  /** Why a `requireNonNull` (or a switch on a `null` enum) threw. */
  datatype NullCause =
    | NullPath
    | UnknownScheme(name: string)
    | NullSchemeType
    | NoApiKeyName
    | MissingApiKey(keyName: string)
    | NoApiKeyValue
    | NullLocation
    | NoBodyGenerator
    | NoTokenEndpoint

  /** The exceptions that can leave, or stay inside, the filter. */
  datatype Fault =
    | NullPointer(cause: NullCause)
    | UnsupportedSchemeType(kind: SchemeType)
    | NonPositiveDuration(seconds: int)
    | EmptyScheme
    | FetchFailed

  datatype Result<+T> = Ok(value: T) | Err(fault: Fault)

  /** A cached token and the clock reading at which it goes stale. */
  datatype Cached = Cached(token: TokenResponse, expiresAt: int)

  /** The `token` field: `null`, or a memoizing supplier with a fixed window (nanoseconds). */
  datatype TokenState = Absent | Memoized(window: int, entry: Option<Cached>)

  /** The token field together with the number of calls made to the token endpoint. */
  datatype Cache = Cache(token: TokenState, fetches: nat)

  /** The mutable world after a step: the builder, the cache, and the exception in flight. */
  datatype Step = Step(builder: Request, cache: Cache, fault: Option<Fault>)

  /** What one filter invocation reads besides the request: configuration, document,
      the clock (nanoseconds) and the token endpoint. */
  datatype Context = Context(cfg: Config, spec: Spec, now: int, endpoint: Oracle)

  /** The exceptions an alternative swallows: only `NullPointerException`. */
  predicate Swallowed(f: Option<Fault>)
  {
    f.Some? && f.value.NullPointer?
  }
}

=== FILE: resolver.dfy ===
/**
 Which security requirements apply to an operation: the per-path, per-method
 table of the document, falling back to the document-wide list.
 */
module Resolver {
  import opened JavaText
  import opened Model

  /** True when the document declares requirements for `(path, m)` itself. */
  predicate Declares(spec: Spec, path: string, m: HttpMethod)
  {
    path in spec.pathRequirements && m in spec.pathRequirements[path]
  }

  /** `getRequirements(path, method)`. A `null` path is a `NullPointerException`; a path or
      method missing from the table resolves to the document-wide list. */
  function GetRequirements(spec: Spec, path: Option<string>, m: HttpMethod): (r: Result<Requirements>)
    ensures r.Err? <==> path.None?
    ensures r.Err? ==> r.fault == NullPointer(NullPath)
    ensures path.Some? && Declares(spec, path.value, m) ==> r == Ok(spec.pathRequirements[path.value][m])
    ensures path.Some? && !Declares(spec, path.value, m) ==> r == Ok(spec.requirements)
  {
    match path
    case None => Err(NullPointer(NullPath))
    case Some(p) =>
      if p in spec.pathRequirements && m in spec.pathRequirements[p] then Ok(spec.pathRequirements[p][m])
      else Ok(spec.requirements)
  }

  /** The table with `reqs` declared for `(path, m)`, every other entry kept. */
  function Declare(spec: Spec, path: string, m: HttpMethod, reqs: Requirements): (r: Spec)
    ensures Declares(r, path, m)
    ensures r.requirements == spec.requirements && r.schemes == spec.schemes
  {
    var methods := if path in spec.pathRequirements then spec.pathRequirements[path] else map[];
    spec.(pathRequirements := spec.pathRequirements[path := methods[m := reqs]])
  }

  /** Declaring a list for one operation changes the resolution of that operation
      only, and it then resolves to exactly that list. */
  lemma DeclareOverrides(spec: Spec, path: string, m: HttpMethod, reqs: Requirements,
                         path': string, m': HttpMethod)
    ensures GetRequirements(Declare(spec, path, m, reqs), Some(path), m) == Ok(reqs)
    ensures (path', m') != (path, m) ==>
      GetRequirements(Declare(spec, path, m, reqs), Some(path'), m') == GetRequirements(spec, Some(path'), m')
  {
  }

  /** Operations the table does not mention all share the document-wide list. */
  lemma UndeclaredShareDefault(spec: Spec, p1: string, m1: HttpMethod, p2: string, m2: HttpMethod)
    requires !Declares(spec, p1, m1) && !Declares(spec, p2, m2)
    ensures GetRequirements(spec, Some(p1), m1) == GetRequirements(spec, Some(p2), m2)
  {
  }
}

=== FILE: sequences.dfy ===
/**
 Small facts about sequence concatenation, stated once for any element type so
 that the proofs about strings and byte strings do not have to rediscover them.
 */
module Sequences {

  lemma AppendHead<T>(a: seq<T>, b: seq<T>)
    requires |a| > 0
    ensures (a + b)[0] == a[0]
    ensures (a + b)[1..] == a[1..] + b
  {
  }

  lemma AppendDrop<T>(a: seq<T>, b: seq<T>, n: nat)
    requires n <= |a|
    ensures (a + b)[n..] == a[n..] + b
  {
  }

  lemma AppendAssoc<T>(a: seq<T>, b: seq<T>, c: seq<T>)
    ensures (a + b) + c == a + (b + c)
  {
  }

  lemma ConsTail<T>(a: seq<T>)
    requires |a| > 0
    ensures [a[0]] + a[1..] == a
  {
  }

  lemma HeadThree<T>(xs: seq<T>)
    requires |xs| >= 3
    ensures [xs[0], xs[1], xs[2]] + xs[3..] == xs
  {
  }
}

=== FILE: text.dfy ===
/**
 Java-flavoured text helpers: nullable values, `String.valueOf` of a possibly
 null string, `Locale.ENGLISH` case mapping (ASCII letters only), and the
 split/join pair used to read back the `&`- and `=`-separated strings the
 interceptor builds.
 */
module JavaText {

  /** A Java reference that may be `null`. */
  datatype Option<+T> = None | Some(value: T)

  /** What `"x" + s` or `"%s".formatted(s)` inserts for `s`: the text, or "null". */
  function Render(s: Option<string>): (r: string)
    ensures s.Some? ==> r == s.value
    ensures s.None? ==> r == "null"
  {
    match s
    case Some(v) => v
    case None => "null"
  }

  predicate IsUpper(c: char) { 'A' <= c <= 'Z' }
  predicate IsLower(c: char) { 'a' <= c <= 'z' }
  predicate IsDigit(c: char) { '0' <= c <= '9' }

  function UpperChar(c: char): (r: char)
    ensures IsLower(c) ==> IsUpper(r) && r as int == c as int - 32
    ensures !IsLower(c) ==> r == c
  {
    if IsLower(c) then (c as int - 32) as char else c
  }

  function LowerChar(c: char): (r: char)
    ensures IsUpper(c) ==> IsLower(r) && r as int == c as int + 32
    ensures !IsUpper(c) ==> r == c
  {
    if IsUpper(c) then (c as int + 32) as char else c
  }

  /** `toUpperCase(Locale.ENGLISH)` restricted to ASCII letters. */
  function ToUpper(s: string): (r: string)
    ensures |r| == |s|
    ensures forall i :: 0 <= i < |s| ==> r[i] == UpperChar(s[i])
  {
    seq(|s|, i requires 0 <= i < |s| => UpperChar(s[i]))
  }

  /** `toLowerCase(Locale.ENGLISH)` restricted to ASCII letters. */
  function ToLower(s: string): (r: string)
    ensures |r| == |s|
    ensures forall i :: 0 <= i < |s| ==> r[i] == LowerChar(s[i])
  {
    seq(|s|, i requires 0 <= i < |s| => LowerChar(s[i]))
  }

  /** Upper-casing forgets exactly the case of ASCII letters. */
  lemma UpperLowerChar(c: char)
    ensures UpperChar(LowerChar(c)) == UpperChar(c)
    ensures LowerChar(UpperChar(c)) == LowerChar(c)
  {
  }

  /** Splits `s` at every occurrence of `sep`; there is always at least one piece. */
  function Split(s: string, sep: char): (r: seq<string>)
    ensures |r| >= 1
    decreases |s|
  {
    if |s| == 0 then [""]
    else if s[0] == sep then [""] + Split(s[1..], sep)
    else
      var rest := Split(s[1..], sep);
      [[s[0]] + rest[0]] + rest[1..]
  }

  /** `Collectors.joining(sep)`: the pieces in order with `sep` between neighbours. */
  function Join(parts: seq<string>, sep: char): string
    decreases |parts|
  {
    if |parts| == 0 then ""
    else if |parts| == 1 then parts[0]
    else parts[0] + [sep] + Join(parts[1..], sep)
  }

  lemma {:induction false} SplitNoSep(s: string, sep: char)
    requires sep !in s
    ensures Split(s, sep) == [s]
    decreases |s|
  {
    if |s| > 0 {
      SplitNoSep(s[1..], sep);
      assert [s[0]] + s[1..] == s;
    }
  }

  /** Splitting distributes over a separator placed between two strings. */
  lemma {:induction false} SplitAppend(a: string, b: string, sep: char)
    ensures Split(a + [sep] + b, sep) == Split(a, sep) + Split(b, sep)
    decreases |a|
  {
    var s := a + [sep] + b;
    if |a| == 0 {
      assert s[0] == sep && s[1..] == b;
    } else {
      assert s[0] == a[0];
      assert s[1..] == a[1..] + [sep] + b;
      SplitAppend(a[1..], b, sep);
      if a[0] != sep {
        var rest := Split(a[1..] + [sep] + b, sep);
        assert rest == Split(a[1..], sep) + Split(b, sep);
        assert rest[0] == Split(a[1..], sep)[0];
        assert rest[1..] == Split(a[1..], sep)[1..] + Split(b, sep);
      }
    }
  }

  /** Joining separator-free pieces and splitting again gives the pieces back. */
  lemma {:induction false} SplitJoin(parts: seq<string>, sep: char)
    requires |parts| >= 1
    requires forall k :: 0 <= k < |parts| ==> sep !in parts[k]
    ensures Split(Join(parts, sep), sep) == parts
    decreases |parts|
  {
    if |parts| == 1 {
      SplitNoSep(parts[0], sep);
    } else {
      SplitJoin(parts[1..], sep);
      SplitAppend(parts[0], Join(parts[1..], sep), sep);
      SplitNoSep(parts[0], sep);
      assert [parts[0]] + parts[1..] == parts;
    }
  }

  /** The index of the first `c` in `s`, if any. */
  function IndexOf(s: string, c: char): (r: Option<nat>)
    ensures r.None? <==> c !in s
    ensures r.Some? ==> r.value < |s| && s[r.value] == c && c !in s[..r.value]
    decreases |s|
  {
    if |s| == 0 then None
    else if s[0] == c then Some(0)
    else
      match IndexOf(s[1..], c)
      case None => None
      case Some(k) =>
        assert s[..k + 1] == [s[0]] + s[1..][..k];
        Some(k + 1)
  }
}

=== FILE: token_cache.dfy ===
/**
 The OAuth2 client-credentials token and its life cycle. The `token` field is
 `null` until the first OAuth2 use; `initToken` then fetches one token only to
 learn `expires_in`, and installs a memoizing supplier whose window that first
 reply fixes for good. The supplier fetches again on its first `get()` and
 whenever the clock has reached the stored expiry. A 401 status puts the field
 back to `null`. Every call to the token endpoint is counted.
 */
module TokenCache {
  import opened JavaText
  import opened Encoding
  import opened Model
  import opened Credentials

  const NanosPerSecond := 1_000_000_000
  const FormContentType := "application/x-www-form-urlencoded"
  const Unauthorized := 401

  /** The token request the constructor prepares. There is none (its `bodyGenerator`
      is `null`) unless a non-empty grant type is configured. */
  function TokenRequest(cfg: Config): (r: Option<TokenPost>)
    ensures r.Some? <==> cfg.grantType.Some? && |cfg.grantType.value| > 0
    ensures r.Some? ==> r.value.contentType == FormContentType
    ensures r.Some? ==> r.value.body == GetBody(cfg.grantType.value, cfg.username, cfg.password)
    ensures r.Some? ==> |r.value.authorization| >= 6 && r.value.authorization[..6] == "Basic "
    ensures r.Some? ==> Base64UrlDecode(r.value.authorization[6..])
                          == Some(Utf8(Render(cfg.clientId) + ":" + Render(cfg.clientSecret)))
  {
    if cfg.grantType.Some? && |cfg.grantType.value| > 0 then
      var credentials := Utf8(Render(cfg.clientId) + ":" + Render(cfg.clientSecret));
      var authorization := "Basic " + Base64Url(credentials);
      assert authorization[6..] == Base64Url(credentials);
      Base64UrlRoundTrip(credentials);
      Some(TokenPost(FormContentType, authorization, GetBody(cfg.grantType.value, cfg.username, cfg.password)))
    else None
  }

  datatype Fetched = Fetched(result: Result<TokenResponse>, fetches: nat)

  /** True when `getToken` gets as far as calling the endpoint: there is a prepared
      request, and a token endpoint for `getTokenUri` to build the URI from. */
  predicate CanFetch(cfg: Config)
  {
    TokenRequest(cfg).Some? && cfg.tokenEndpoint.Some?
  }

  /** `getToken()`, made as call number `fetches` to the endpoint. Without a prepared
      request, or with a `null` token endpoint (`new URI(null)` in `getTokenUri`), it
      throws before any call; a failed call still counts. */
  function GetToken(ctx: Context, fetches: nat): (r: Fetched)
    ensures TokenRequest(ctx.cfg).None? ==> r == Fetched(Err(NullPointer(NoBodyGenerator)), fetches)
    ensures TokenRequest(ctx.cfg).Some? && ctx.cfg.tokenEndpoint.None? ==>
      r == Fetched(Err(NullPointer(NoTokenEndpoint)), fetches)
    ensures CanFetch(ctx.cfg) ==> r.fetches == fetches + 1
    ensures CanFetch(ctx.cfg) ==>
      match ctx.endpoint(TokenRequest(ctx.cfg).value, fetches)
      case Some(t) => r.result == Ok(t)
      case None => r.result == Err(FetchFailed)
  {
    match TokenRequest(ctx.cfg)
    case None => Fetched(Err(NullPointer(NoBodyGenerator)), fetches)
    case Some(post) =>
      if ctx.cfg.tokenEndpoint.None? then Fetched(Err(NullPointer(NoTokenEndpoint)), fetches)
      else
        match ctx.endpoint(post, fetches)
        case Some(t) => Fetched(Ok(t), fetches + 1)
        case None => Fetched(Err(FetchFailed), fetches + 1)
  }

  /** The expiry Guava stores after a fetch at `now`: `now + window`, except that 0 is
      its "never fetched" marker and is stored as 1. */
  function ExpiryAfter(now: int, window: int): (r: int)
    ensures r != 0
    ensures r == now + window || (now + window == 0 && r == 1)
  {
    if now + window == 0 then 1 else now + window
  }

  /** An entry is served without a call while the clock is before its expiry. */
  predicate IsFresh(entry: Option<Cached>, now: int)
  {
    entry.Some? && now < entry.value.expiresAt
  }

  datatype Access = Access(result: Result<TokenResponse>, cache: Cache)

  /** `get()` on `Suppliers.memoizeWithExpiration(this::getToken, window)`. */
  function MemoGet(ctx: Context, window: int, entry: Option<Cached>, fetches: nat): (r: Access)
    ensures r.cache.token.Memoized? && r.cache.token.window == window
    ensures IsFresh(entry, ctx.now) ==>
      r == Access(Ok(entry.value.token), Cache(Memoized(window, entry), fetches))
    ensures !IsFresh(entry, ctx.now) ==> r.result == GetToken(ctx, fetches).result
    ensures !IsFresh(entry, ctx.now) ==> r.cache.fetches == GetToken(ctx, fetches).fetches
    ensures !IsFresh(entry, ctx.now) && r.result.Ok? ==>
      r.cache.token.entry == Some(Cached(r.result.value, ExpiryAfter(ctx.now, window)))
    ensures r.result.Err? ==> r.cache.token.entry == entry
  {
    if IsFresh(entry, ctx.now) then Access(Ok(entry.value.token), Cache(Memoized(window, entry), fetches))
    else
      var f := GetToken(ctx, fetches);
      match f.result
      case Ok(t) => Access(Ok(t), Cache(Memoized(window, Some(Cached(t, ExpiryAfter(ctx.now, window)))), f.fetches))
      case Err(e) => Access(Err(e), Cache(Memoized(window, entry), f.fetches))
  }

  datatype Init = Init(fault: Option<Fault>, cache: Cache)

  /** `initToken()`: one fetch to read `expires_in`, then a fresh, empty supplier whose
      window is that many seconds. Guava rejects a window that is not positive. */
  function InitToken(ctx: Context, c: Cache): (r: Init)
    ensures r.fault.None? <==>
      GetToken(ctx, c.fetches).result.Ok? && GetToken(ctx, c.fetches).result.value.expiresInSeconds > 0
    ensures r.fault.None? ==> r.cache == Cache(
      Memoized(GetToken(ctx, c.fetches).result.value.expiresInSeconds * NanosPerSecond, None),
      GetToken(ctx, c.fetches).fetches)
    ensures r.fault.Some? ==> r.cache == Cache(c.token, GetToken(ctx, c.fetches).fetches)
    ensures GetToken(ctx, c.fetches).result.Err? ==> r.fault == Some(GetToken(ctx, c.fetches).result.fault)
    ensures GetToken(ctx, c.fetches).result.Ok? && r.fault.Some? ==>
      r.fault == Some(NonPositiveDuration(GetToken(ctx, c.fetches).result.value.expiresInSeconds))
  {
    var f := GetToken(ctx, c.fetches);
    match f.result
    case Err(e) => Init(Some(e), Cache(c.token, f.fetches))
    case Ok(t) =>
      if t.expiresInSeconds <= 0 then Init(Some(NonPositiveDuration(t.expiresInSeconds)), Cache(c.token, f.fetches))
      else Init(None, Cache(Memoized(t.expiresInSeconds * NanosPerSecond, None), f.fetches))
  }

  /** The token `applyOAuth` puts on the request: initialize the field when it is `null`,
      then ask the supplier. */
  function CurrentToken(ctx: Context, c: Cache): (r: Access)
    ensures c.fetches <= r.cache.fetches <= c.fetches + 2
    ensures r.result.Ok? ==> r.cache.token.Memoized? && r.cache.token.entry.Some?
                             && r.cache.token.entry.value.token == r.result.value
  {
    match c.token
    case Memoized(w, entry) => MemoGet(ctx, w, entry, c.fetches)
    case Absent =>
      var init := InitToken(ctx, c);
      if init.fault.Some? then Access(Err(init.fault.value), init.cache)
      else MemoGet(ctx, init.cache.token.window, None, init.cache.fetches)
  }

  /** `applyOAuth(builder)`: `Authorization: Bearer <access_token>` on success; on an
      exception the builder is untouched but the cache keeps what happened to it. */
  function ApplyOAuth(ctx: Context, b: Request, c: Cache): (r: Step)
    ensures r.cache == CurrentToken(ctx, c).cache
    ensures r.fault.None? <==> CurrentToken(ctx, c).result.Ok?
    ensures r.fault.Some? ==> r.builder == b && r.fault.value == CurrentToken(ctx, c).result.fault
    ensures r.fault.None? ==> r.builder == AddHeader(b, "Authorization",
                                "Bearer " + Render(CurrentToken(ctx, c).result.value.accessToken))
  {
    var a := CurrentToken(ctx, c);
    match a.result
    case Ok(t) => Step(AddHeader(b, "Authorization", "Bearer " + Render(t.accessToken)), a.cache, None)
    case Err(f) => Step(b, a.cache, Some(f))
  }

  /** `statusReceived(code)`: a 401 drops the token; any other status changes nothing. */
  function StatusReceived(c: Cache, code: int): (r: Cache)
    ensures code == Unauthorized ==> r.token == Absent && r.fetches == c.fetches
    ensures code != Unauthorized ==> r == c
  {
    if code == Unauthorized then c.(token := Absent) else c
  }

  /** The first OAuth2 use calls the endpoint twice: once inside `initToken` to learn the
      window, once more through the new supplier, whose reply is the token sent. */
  lemma FirstUseFetchesTwice(ctx: Context, c: Cache)
    requires c.token.Absent? && CanFetch(ctx.cfg)
    requires ctx.endpoint(TokenRequest(ctx.cfg).value, c.fetches).Some?
    requires ctx.endpoint(TokenRequest(ctx.cfg).value, c.fetches).value.expiresInSeconds > 0
    requires ctx.endpoint(TokenRequest(ctx.cfg).value, c.fetches + 1).Some?
    ensures CurrentToken(ctx, c).cache.fetches == c.fetches + 2
    ensures CurrentToken(ctx, c).result == Ok(ctx.endpoint(TokenRequest(ctx.cfg).value, c.fetches + 1).value)
    ensures CurrentToken(ctx, c).cache.token.window
              == ctx.endpoint(TokenRequest(ctx.cfg).value, c.fetches).value.expiresInSeconds * NanosPerSecond
    ensures CurrentToken(ctx, c).cache.token.entry
              == Some(Cached(ctx.endpoint(TokenRequest(ctx.cfg).value, c.fetches + 1).value,
                             ExpiryAfter(ctx.now, ctx.endpoint(TokenRequest(ctx.cfg).value, c.fetches).value.expiresInSeconds * NanosPerSecond)))
  {
  }

  /** A first use whose initial reply carries a window that is not positive fails after
      one call and leaves the field `null`. */
  lemma NonPositiveWindowRejected(ctx: Context, c: Cache)
    requires c.token.Absent? && CanFetch(ctx.cfg)
    requires ctx.endpoint(TokenRequest(ctx.cfg).value, c.fetches).Some?
    requires ctx.endpoint(TokenRequest(ctx.cfg).value, c.fetches).value.expiresInSeconds <= 0
    ensures CurrentToken(ctx, c).result
              == Err(NonPositiveDuration(ctx.endpoint(TokenRequest(ctx.cfg).value, c.fetches).value.expiresInSeconds))
    ensures CurrentToken(ctx, c).cache == Cache(Absent, c.fetches + 1)
  {
  }

  /** Without a grant type, or without a token endpoint, nothing is ever fetched: every
      use that needs a token fails with a `NullPointerException` and changes nothing. */
  lemma NoFetchWithoutEndpoint(ctx: Context, c: Cache)
    requires !CanFetch(ctx.cfg)
    requires !(c.token.Memoized? && IsFresh(c.token.entry, ctx.now))
    ensures CurrentToken(ctx, c).result
              == Err(NullPointer(if TokenRequest(ctx.cfg).None? then NoBodyGenerator else NoTokenEndpoint))
    ensures CurrentToken(ctx, c).cache == c
  {
  }

  /** A failed call to the token endpoint is not turned into a `NullPointerException`:
      `FetchFailed` leaves `applyOAuth`, after one counted call, with the field as it was. */
  lemma FetchFailureEscapes(ctx: Context, c: Cache)
    requires CanFetch(ctx.cfg)
    requires !(c.token.Memoized? && IsFresh(c.token.entry, ctx.now))
    requires ctx.endpoint(TokenRequest(ctx.cfg).value, c.fetches).None?
    ensures CurrentToken(ctx, c) == Access(Err(FetchFailed), Cache(c.token, c.fetches + 1))
  {
  }

  /** The only exceptions a token use raises are `getToken`'s own and Guava's rejection
      of a window that is not positive. */
  lemma TokenFaults(ctx: Context, c: Cache)
    ensures CurrentToken(ctx, c).result.Err? ==>
      var f := CurrentToken(ctx, c).result.fault;
      f == FetchFailed
      || (!CanFetch(ctx.cfg) && f == NullPointer(if TokenRequest(ctx.cfg).None? then NoBodyGenerator else NoTokenEndpoint))
      || (f.NonPositiveDuration? && f.seconds <= 0 && c.token.Absent?)
  {
  }

  /** Inside its window the cached token is served again and the cache is untouched. */
  lemma FreshTokenReused(ctx: Context, c: Cache)
    requires c.token.Memoized? && IsFresh(c.token.entry, ctx.now)
    ensures CurrentToken(ctx, c) == Access(Ok(c.token.entry.value.token), c)
  {
  }

  /** Once the clock reaches the expiry, exactly one call refreshes the entry; the window
      stays what the first token fixed, and a failed call keeps the old entry. */
  lemma ExpiredTokenRefetchedOnce(ctx: Context, c: Cache)
    requires c.token.Memoized? && !IsFresh(c.token.entry, ctx.now) && CanFetch(ctx.cfg)
    ensures CurrentToken(ctx, c).cache.fetches == c.fetches + 1
    ensures CurrentToken(ctx, c).cache.token.window == c.token.window
    ensures CurrentToken(ctx, c).result.Ok? <==> ctx.endpoint(TokenRequest(ctx.cfg).value, c.fetches).Some?
    ensures CurrentToken(ctx, c).result.Ok? ==>
      CurrentToken(ctx, c).cache.token.entry
        == Some(Cached(ctx.endpoint(TokenRequest(ctx.cfg).value, c.fetches).value, ExpiryAfter(ctx.now, c.token.window)))
    ensures CurrentToken(ctx, c).result.Err? ==> CurrentToken(ctx, c).cache.token == c.token
  {
  }

  /** After a 401 the next use never serves the dropped token: it starts over with
      `initToken`, and a success is the reply to the second new call. */
  lemma UnauthorizedForcesFetch(ctx: Context, c: Cache)
    requires CanFetch(ctx.cfg)
    ensures CurrentToken(ctx, StatusReceived(c, Unauthorized)).cache.fetches >= c.fetches + 1
    ensures CurrentToken(ctx, StatusReceived(c, Unauthorized)).result.Ok? ==>
      CurrentToken(ctx, StatusReceived(c, Unauthorized)).cache.fetches == c.fetches + 2
      && Some(CurrentToken(ctx, StatusReceived(c, Unauthorized)).result.value)
           == ctx.endpoint(TokenRequest(ctx.cfg).value, c.fetches + 1)
  {
  }

  /** What happens to the token across requests: a use at a clock reading, or a status
      reported back by the connector. */
  datatype Event = Use(at: int) | Status(code: int)

  /** The cache after the events, each use made at its own clock reading. */
  function Replay(cfg: Config, spec: Spec, endpoint: Oracle, events: seq<Event>, c: Cache): (r: Cache)
    ensures r.fetches >= c.fetches
    decreases |events|
  {
    if |events| == 0 then c
    else
      var next := match events[0]
        case Use(t) => CurrentToken(Context(cfg, spec, t, endpoint), c).cache
        case Status(code) => StatusReceived(c, code);
      Replay(cfg, spec, endpoint, events[1..], next)
  }

  /** An event that cannot disturb a cached entry expiring at `expiresAt`. */
  predicate Quiet(e: Event, expiresAt: int)
  {
    match e
    case Use(t) => t < expiresAt
    case Status(code) => code != Unauthorized
  }

  /** Uses before the expiry and statuses other than 401 cost no call and change nothing:
      one token serves its whole window. */
  lemma {:induction false} NoFetchWithinWindow(cfg: Config, spec: Spec, endpoint: Oracle, events: seq<Event>, c: Cache)
    requires c.token.Memoized? && c.token.entry.Some?
    requires forall k :: 0 <= k < |events| ==> Quiet(events[k], c.token.entry.value.expiresAt)
    ensures Replay(cfg, spec, endpoint, events, c) == c
    decreases |events|
  {
    if |events| > 0 {
      assert Quiet(events[0], c.token.entry.value.expiresAt);
      match events[0] {
        case Use(t) => FreshTokenReused(Context(cfg, spec, t, endpoint), c);
        case Status(code) =>
      }
      NoFetchWithinWindow(cfg, spec, endpoint, events[1..], c);
    }
  }

  /** Each event costs at most two calls to the endpoint. */
  lemma {:induction false} FetchesBounded(cfg: Config, spec: Spec, endpoint: Oracle, events: seq<Event>, c: Cache)
    ensures Replay(cfg, spec, endpoint, events, c).fetches <= c.fetches + 2 * |events|
    decreases |events|
  {
    if |events| > 0 {
      var next := match events[0]
        case Use(t) => CurrentToken(Context(cfg, spec, t, endpoint), c).cache
        case Status(code) => StatusReceived(c, code);
      FetchesBounded(cfg, spec, endpoint, events[1..], next);
    }
  }

  /** Without a 401 a memoized supplier is never replaced: its window is fixed for good. */
  lemma {:induction false} WindowKept(cfg: Config, spec: Spec, endpoint: Oracle, events: seq<Event>, c: Cache)
    requires c.token.Memoized?
    requires forall k :: 0 <= k < |events| ==> events[k] != Status(Unauthorized)
    ensures Replay(cfg, spec, endpoint, events, c).token.Memoized?
    ensures Replay(cfg, spec, endpoint, events, c).token.window == c.token.window
    decreases |events|
  {
    if |events| > 0 {
      var next := match events[0]
        case Use(t) => CurrentToken(Context(cfg, spec, t, endpoint), c).cache
        case Status(code) => StatusReceived(c, code);
      assert next.token.Memoized? && next.token.window == c.token.window by {
        match events[0]
        case Use(t) => MemoGetKeepsWindow(Context(cfg, spec, t, endpoint), c);
        case Status(code) =>
      }
      WindowKept(cfg, spec, endpoint, events[1..], next);
    }
  }

  lemma MemoGetKeepsWindow(ctx: Context, c: Cache)
    requires c.token.Memoized?
    ensures CurrentToken(ctx, c).cache.token.Memoized?
    ensures CurrentToken(ctx, c).cache.token.window == c.token.window
  {
  }
}
